=== FILE: README.md ===
# ngemeng content pipeline, in Dafny

`ngemeng.py` is a small static blog generator written in Python 2. It reads
posts written as reStructuredText with a YAML header and writes HTML pages.
This project models the part of it that turns post text into pages, as
immutable datatypes and pure functions:

- **Document splitting** (`Content.read`). The pattern
  `\s*---(?P<meta>.+?)---\n(?P<content>.+)` splits a document into its
  metadata text and its body, or rejects it with "Invalid content format".
- **Content construction** (`Content.__init__`). The keys `title`,
  `permalink` and `date` are required.
- **Date normalisation** (`_parse_date`). A datetime passes through.
  Otherwise Python 2.7's `strptime` with `'%Y-%m-%d %H:%M:%S'` is tried,
  modelled down to its per-directive regular expressions. Failing that,
  the RFC 2822 parser is tried, whose first six fields go to `datetime(...)`.
- **Literal-block rewrite and caching** (`_parse_rst`, `parse`). Each
  `<pre class="literal-block">\n[#!lang\n]code</pre>` becomes
  `<pre class="literal-block"><code class="lang">code</code></pre>`. The
  HTML is computed once.
- **Entry derivation** (`BlogEntry`, `BlogTag`):
  - the zero-padded URL `/YYYY/MM/DD/<permalink>/`;
  - the id, the hex SHA-1 of `YYYY-MM-DD-<permalink>`;
  - comma-separated, stripped tags, each listed at `/tags/<name>/`.
- **The build** (`Blog.write`, `_write_entries`, `_write_index`). Contents
  are sorted stably by date, oldest first. Each gets an entry page. Index
  pages follow, newest first, ten entries per page, with `prev` and `next`
  links. A page is returned as a `Page(path, context, template)` record
  rather than rendered and written.
- **Helpers**:
  - the target normalisation of `Printer.write`;
  - the context merge of `get_context`;
  - `Config.__getattr__`.

Foreign code becomes function-typed parameters:

- `yaml.load` is `decode: string -> Option<Metadata>`;
- the docutils renderer is `render: string -> string`;
- `email.utils.parsedate` is `parsedate: string -> Option<RawFields>`;
- `hashlib.sha1` (FIPS 180-4) is `sha1: seq<byte> -> Digest`.

Every exception the code can raise on the modelled path is a value of
`Values.Error`, and it ends the build the way the uncaught exception does.

Modules, one per file:

- `Wrappers` (`Option`, `Result`);
- `Text` (strip, split/join, decimal and zero-padded numbers, ASCII,
  hex);
- `Dates` (datetime, `str(datetime)`, `strptime`);
- `Values` (metadata values, errors);
- `LiteralBlocks` (the rewrite);
- `Contents` (`Content`);
- `Entries` (`BlogTag`, `BlogEntry`);
- `Sorting` (the stable sort);
- `Indexes` (the index pages);
- `Printers` (the target path);
- `Blogs` (the build).

Two behaviours are kept as the code has them, although they look unintended:

- An empty collection of posts gets no index page at all, because
  `range(0, 0, 10)` is empty.
- The `next` link is decided against `total // 10 + 1`, not against the
  number of pages. So the last page links to a page that is never written
  whenever the number of posts is a positive multiple of ten
  (`Indexes.DanglingNext`).

## Model

| member | source | states |
|---|---|---|
| Contents.FindClose | ngemeng.py:40 | the lazy `.+?` stops at the first position from which `---\n` and at least one more character follow, and at no earlier one; none when there is no such position |
| Contents.SplitDocument | ngemeng.py:40-45 | `re_content.match`: the metadata text and body, or none for 'Invalid content format'; what it accepts and returns is stated by SplitDocumentSound and SplitDocumentComplete |
| Contents.SplitDocumentSound | ngemeng.py:40-45 | an accepted document is leading whitespace, `---`, a non-empty metadata text containing no `---\n` after its first character, `---\n`, and a non-empty body |
| Contents.SplitDocumentComplete | ngemeng.py:40-47 | every document of that layout is accepted and gives back exactly its own metadata text and body |
| Contents.NewContent | ngemeng.py:52-63 | construction succeeds exactly when `title`, `permalink` and `date` are all present and the date can be read; a missing key fails on the first of them in that order; on success the fields are the metadata values, the date is the normalised one and nothing is rendered yet; a date that cannot be read fails the construction with the date's own error |
| Contents.ReadContent | ngemeng.py:35-50 | a document the pattern rejects is 'Invalid content format'; metadata YAML cannot load is a load error; metadata holding a `content` or `self` key is the duplicate-argument `TypeError`; otherwise the result is the constructor applied to the body and the loaded metadata, so a content that is read has that metadata, its body, its title and permalink from the metadata, and no rendered HTML yet |
| Contents.ReadContentRoundTrip | ngemeng.py:35-63 | a document written in the layout with the three required keys reads back to its body, title, permalink and date |
| Dates.FormatIsCString | ngemeng.py:70 | the `str()` of a datetime is ASCII and holds no NUL, so `strptime` always takes it as a C string |
| Contents.ParseDate | ngemeng.py:65-75 | `_parse_date`: a datetime passes, a string goes to `strptime` and then to `parsedate`; its results and errors are stated by ParseDateStrict and ParseDateErrors |
| Contents.Fallback | ngemeng.py:72-75 | the `except ValueError` branch: 'Invalid date' when `parsedate` gives nothing, else `datetime(*dt[:6])`; stated by the last clauses of ParseDateErrors |
| Dates.ParseStrict | ngemeng.py:70 | `strptime(s, '%Y-%m-%d %H:%M:%S')` as the per-directive match; ParseStrictFormat states that it reads every `str(d)` back to `d`, FirstMatch how each directive chooses |
| Contents.ParseDateStrict | ngemeng.py:65-70 | a datetime passes through unchanged, and the `str()` of any datetime is read back by `strptime` to the same six fields whatever the fallback parser would say |
| Contents.ParseDateErrors | ngemeng.py:65-75 | an ASCII string holding a NUL fails with the `TypeError` `strptime` raises, which is not caught; a non-ASCII string always goes to `parsedate`, because the UnicodeEncodeError `strptime` raises first is a caught ValueError; 'Invalid date', with the string itself in the message, is raised exactly for the other strings that neither `strptime` nor `parsedate` accepts; a value that is neither a string nor a datetime fails; when only the fallback parses, its six fields are used or `datetime` rejects them |
| Contents.Parse | ngemeng.py:77-80 | after `parse()` the HTML is present; an already parsed content is unchanged; otherwise the HTML is the rewrite of the rendered body; no other field changes |
| Contents.ParseOnce | ngemeng.py:77-80 | a second `parse()`, even with another renderer, changes nothing |
| Dates.BeforeIsStrictTotalOrder | ngemeng.py:179 | the datetime order the sort uses is irreflexive, asymmetric, transitive and total |
| Dates.DayStamp | ngemeng.py:149-154 | `'%04d-%02d-%02d'` is ten characters: the zero-padded year, month and day in their slots, separated by the separator |
| Dates.DayStampInjective | ngemeng.py:149-154 | two day stamps are equal exactly when their separators and their year, month and day agree |
| Dates.FirstMatch | ngemeng.py:70 | a directive takes the length of the first alternative that matches, every earlier alternative failing there, and fails exactly when no alternative matches |
| Dates.FromFields | ngemeng.py:75 | `datetime(*fields)` succeeds exactly on fields in the calendar's ranges, and keeps them |
| Dates.ParseStrictFormat | ngemeng.py:70 | `strptime(str(d), '%Y-%m-%d %H:%M:%S')` returns `d` for every datetime `d` |
| Values.Get | ngemeng.py:146 | `meta.get(key, None)`: the stored value for a present key, None for an absent one |
| Blogs.Setting | ngemeng.py:30-31 | an unknown setting reads as None, a known one as its value |
| Blogs.GetContext | ngemeng.py:168-174 | the context has the page's keys plus the analytics key; page keys keep their values; the analytics id is the configuration's unless a page key replaces it |
| Blogs.AnalyticsEverywhere | ngemeng.py:168-191 | every page of every build, entry or index, carries the configuration's analytics id |
| LiteralBlocks.FindCloser | ngemeng.py:92-93 | the lazy code group ends at the first `</pre>` at or after its start, and at no earlier position |
| LiteralBlocks.LangLine | ngemeng.py:91 | the language line, when present, is `#!`, a non-empty run of word characters that it returns as the language, and a newline |
| LiteralBlocks.LangLineAbsent | ngemeng.py:91 | the language line is absent exactly when the fragment does not start with `#!`, a run of word characters and a newline |
| LiteralBlocks.MatchBlock | ngemeng.py:89-94 | a match at the start of the text spans at least an opener and a closer and no more than the text; MatchBlockText states which blocks match and with what |
| LiteralBlocks.MatchBlockText | ngemeng.py:89-94 | a literal block with a word-character language, or with no language and code that does not itself start with a language line (`# comment` and `#!/bin/sh` included), and with no `</pre>` inside its code, matches as a whole with exactly that language and code |
| LiteralBlocks.Rewrite | ngemeng.py:96-101 | `code_block_re.sub(repl, html)`; stated by RewriteBlock, ShebangBlock, RewritePlainPrefix and RewriteWithoutBlocks |
| LiteralBlocks.RewriteBlock | ngemeng.py:96-101 | such a block is replaced by `<pre class="literal-block"><code class="lang">code</code></pre>`, with `None` as the class when there is no language, and the rewrite carries on after it |
| LiteralBlocks.ShebangBlock | ngemeng.py:91-99 | a block whose code is `#!/bin/sh` is plain code, not a language line, and is rewritten with the class `None` |
| LiteralBlocks.RewritePlainPrefix | ngemeng.py:101 | text in which no block starts is copied unchanged ahead of the rewrite of what follows it |
| LiteralBlocks.RewriteWithoutBlocks | ngemeng.py:101 | HTML without literal blocks is returned unchanged |
| Text.Split | ngemeng.py:160 | `split(',')` gives one piece more than there are commas, none containing a comma, and joining them with commas gives the text back |
| Text.SplitJoin | ngemeng.py:160 | splitting a comma-join of comma-free pieces gives back the pieces, empty ones included |
| Text.StripSurrounded | ngemeng.py:160 | `strip()` removes exactly the whitespace around a text that has none at its ends |
| Text.Decimal | ngemeng.py:246 | `'%d' % n` is a non-empty digit string without a leading zero whose value is `n` |
| Text.ZeroPad | ngemeng.py:149-154 | `'%0*d'` gives digits worth `n`, at least `width` long, exactly `width` long when `n` fits |
| Text.FixedWidthInjective | ngemeng.py:149-154 | two numbers padded to the same width print the same only if they are equal |
| Text.AsciiEncode | ngemeng.py:155 | encoding succeeds exactly when every character is below 128, and then keeps every code |
| Text.HexRoundTrip | ngemeng.py:155 | `hexdigest()` loses nothing: reading the hex back gives the digest bytes |
| Entries.NewTag | ngemeng.py:133-136 | a tag keeps its name and is listed at `/tags/<name>/` |
| Entries.TagUrlInjective | ngemeng.py:136 | two tags share a listing URL exactly when their names are equal |
| Entries.TagsOf | ngemeng.py:157-160 | no tags exactly when the value is absent; a non-string value raises; a string gives one tag per comma plus one, the i-th named by the stripped i-th piece |
| Entries.TagsRoundTrip | ngemeng.py:157-160 | names written with any surrounding whitespace and joined by commas read back as exactly those names, in order |
| Entries.TagsKeepEmpty | ngemeng.py:160 | `a,,b` gives three tags, the middle one with an empty name |
| Entries.EntryUrl | ngemeng.py:148-151 | the URL is `/`, the day stamp with `/` separators, `/`, the permalink, `/` |
| Entries.EntryUrlInjective | ngemeng.py:148-151 | two entries share a URL exactly when their day and permalink agree |
| Entries.IdText | ngemeng.py:153-154 | the id text is the day stamp with `-` separators, `-`, and the permalink, in their slots |
| Entries.IdTextInjective | ngemeng.py:153-154 | two id texts agree exactly when their day and permalink agree |
| Entries.BuildEntry | ngemeng.py:141-160 | tag errors come first; readable tags with a non-ASCII id text fail with the encoding error; an entry is built exactly when the tags read and the id text is ASCII; the entry keeps the HTML, date and title, has the tags the metadata lists, each with its listing URL, the dated URL, and a 40-character lower-case hex id |
| Entries.IdOnlyFromDayAndPermalink | ngemeng.py:153-155 | the id depends on the day and the permalink alone, not on time of day, title, body or tags |
| Entries.IdDigest | ngemeng.py:153-155 | the id decodes to the SHA-1 of the ASCII bytes of the id text |
| Entries.BuildEntryDeterministic | ngemeng.py:141-155 | contents that agree on what an entry reads give the same entry, so building an entry twice gives the same result |
| Sorting.Insert | ngemeng.py:179 | inserting into a date-sorted list keeps it sorted and adds exactly the one content |
| Sorting.SortByDate | ngemeng.py:179 | the result is ordered by date, oldest first, and is a permutation of the input |
| Sorting.SortStable | ngemeng.py:179 | the contents of any one date keep their input order |
| Printers.NormalizeTarget | ngemeng.py:116-118 | the path is the target without its leading slashes, with `index.html` appended exactly when that is empty or ends in `/`; it neither starts nor ends with `/` |
| Printers.NormalizeDirectory | ngemeng.py:116-118 | a directory target with any number of leading slashes is written as its `index.html` |
| Printers.NormalizeFile | ngemeng.py:116-118 | a file target only loses its leading slashes |
| Printers.NormalizeRoot | ngemeng.py:116-118 | the root, as slashes or as nothing, is `index.html` |
| Printers.NormalizeIdempotent | ngemeng.py:116-118 | normalising a normalised path changes nothing |
| Indexes.Range | ngemeng.py:243 | `range(start, stop, step)` is empty exactly when `start >= stop`, its i-th element is `start + i * step`, below `stop`, and it is complete: one more step from its last element reaches `stop` |
| Indexes.IndexPath | ngemeng.py:244-246 | page 0 is written to `index.html`, and page i > 0 to `index`, the decimal digits of i + 1 without a leading zero, `.html` |
| Indexes.IndexPathInjective | ngemeng.py:244-246 | two index pages share a path exactly when they are the same page |
| Indexes.Prev | ngemeng.py:250-253 | the `prev` link of page `i`; stated by PrevIsPreviousPage |
| Indexes.Next | ngemeng.py:254-255 | the `next` link of page `i` out of `total` entries; stated by NextIsNextPage and DanglingNext |
| Indexes.PrevIsPreviousPage | ngemeng.py:250-253 | `prev` is present exactly from the second page on, and names the page just before |
| Indexes.NextIsNextPage | ngemeng.py:241-255 | `next` is present exactly while the page number is below `total // 10`, and names the page just after |
| Indexes.IndexPages | ngemeng.py:238-257 | the index pages of a newest-first listing; stated by PageCount, PageContents, PagesCoverListing and DanglingNext |
| Indexes.PageCount | ngemeng.py:243 | the number of index pages is the number of started blocks of ten, none for an empty listing |
| Indexes.PageContents | ngemeng.py:243-255 | page `i` holds entries `10 i` up to `10 i + 10` of the newest-first listing, clipped at its end, between one and ten of them, with its path and links |
| Indexes.PagesCoverListing | ngemeng.py:242-249 | the pages read in order give back the newest-first listing: every entry on exactly one page |
| Indexes.DanglingNext | ngemeng.py:241-255 | a page has `next` exactly when a later page exists or the listing's length is a multiple of ten |
| Blogs.EntryPage | ngemeng.py:185-191 | the page `_write_entries` writes for one entry; EntryPagePath states where, AnalyticsEverywhere its analytics id |
| Blogs.IndexPageOut | ngemeng.py:248-257 | the page `_write_index` writes for one index page; IndexPageLinks states its context, IndexPathIsFile its path |
| Blogs.Write | ngemeng.py:176-257 | `Blog.write`; stated by WriteComplete, WriteStops and AnalyticsEverywhere |
| Blogs.EntryPagePath | ngemeng.py:116-118 | an entry page is written to `YYYY/MM/DD/<permalink>/index.html` |
| Blogs.IndexPathIsFile | ngemeng.py:116-118 | an index page is written at its own path |
| Blogs.Published | ngemeng.py:176-179 | the published contents are all parsed, as many as were given, sorted oldest first, and a permutation of the parsed inputs |
| Blogs.MapUntilFailure | ngemeng.py:185-191 | a loop that stops at its first raising step gives the results before it, and that step's error exactly when it did not reach the end |
| Blogs.WriteComplete | ngemeng.py:176-257 | a build without error writes one entry page per content, oldest first, each the page of its entry, and then one index page per started block of ten: the i-th of them is exactly the page of the i-th index page of the newest-first entries (its entries and links), from the index template at its own path |
| Blogs.WriteStops | ngemeng.py:176-191 | a failing build stops at the first content, oldest first, whose entry cannot be built: only the entry pages before it are written, then the error, and no index page |
| Blogs.IndexPageLinks | ngemeng.py:248-256 | an index page's context lists its entries and has `prev` and `next` exactly when the page has those links |

## Left out

- File and process I/O are not modelled: `main`, `Config.read`
  (`execfile` of a configuration file), `codecs.open` and `f.read`,
  `os.makedirs`, writing files, and the `print` in `Printer.write`.
- `yaml.load` is the parameter `decode`. The metadata is already a map
  from string keys to `Values.Value`; numbers, lists and the like appear
  only as their printed text.
- The docutils renderer is the parameter `render`. Only the literal-block
  rewrite of its HTML is modelled.
- `email.utils.parsedate` is the parameter `parsedate`. Its RFC 2822
  grammar is outside this model.
- `hashlib.sha1` is the parameter `sha1`, returning 20 bytes. Only its
  determinism is used.
- Jinja2 templates and rendering are not modelled. A page is the record of
  what would be rendered: path, context and template name.
- `_write_indices` is dead code, because its call is commented out in
  `Blog.write`.
- Datetimes carry no microseconds or time zones. `str()` of a datetime with
  microseconds is outside the model.
- Metadata keys are strings. A non-string YAML key is outside the model.
- Whitespace is the ASCII set `\s` and `strip()` use on byte strings. The
  wider Unicode set is outside the model.
- Blogs.Write: the index pages reuse the entries built for the entry
  pages, where the code builds them again. `Entries.BuildEntryDeterministic`
  shows that rebuilding gives the same entries.
- `Config.__init__` and `Printer.__init__` only store their arguments and
  are not modelled. The configuration is a map.

=== FILE: blog.dfy ===
/** `Blog.write`: parse every content, sort by date, publish one page per
    entry, then the index pages. Pages are returned as records instead of
    being rendered and written. */
module Blogs {
  import opened Wrappers
  import opened Text
  import opened Dates
  import opened Values
  import opened Contents
  import opened Entries
  import opened Sorting
  import opened Indexes
  import opened Printers

  /** The upper-case settings of the configuration file. */
  type Config = map<string, Value>

  /** `Config.__getattr__`: a setting by name, `None` when it is not set. */
  function Setting(conf: Config, name: string): (v: Value)
    ensures name in conf ==> v == conf[name]
    ensures name !in conf ==> v == VNone
  {
    Get(conf, name)
  }

  /** What a template context may hold. */
  datatype ContextValue =
    | Plain(v: Value)
    | OneEntry(entry: Entry)
    | EntryList(entries: seq<Entry>)
    | Link(path: string)

  type Context = map<string, ContextValue>

  const AnalyticsKey := "google_analytics_id"
  const AnalyticsSetting := "GOOGLE_ANALYTICS_ID"

  /** `get_default_context`. */
  function DefaultContext(conf: Config): Context {
    map[AnalyticsKey := Plain(Setting(conf, AnalyticsSetting))]
  }

  /** `get_context(extra)`: the default context updated with the page's own
      keys, which win over the default. */
  function GetContext(conf: Config, extra: Context): (r: Context)
    ensures r.Keys == extra.Keys + {AnalyticsKey}
    ensures forall k :: k in extra ==> r[k] == extra[k]
    ensures AnalyticsKey !in extra ==> r[AnalyticsKey] == Plain(Setting(conf, AnalyticsSetting))
  {
    DefaultContext(conf) + extra
  }

  /** A page handed to the printer: the path it is written to below the
      output directory, its context and its template. */
  datatype Page = Page(path: string, context: Context, template: string)

  const EntryTemplate := "blog_entry.html"
  const IndexTemplate := "blog_index.html"

  /** `_write_entries`, one entry: the entry and its title, at the entry's URL. */
  function EntryPage(conf: Config, e: Entry): Page {
    Page(NormalizeTarget(e.url),
         GetContext(conf, map["entry" := OneEntry(e), "title" := Plain(e.title)]),
         EntryTemplate)
  }

  /** The link keys a page carries. */
  function Links(prev: Option<string>, next: Option<string>): (r: Context)
    ensures "prev" in r <==> prev.Some?
    ensures "next" in r <==> next.Some?
    ensures r.Keys <= {"prev", "next"}
    ensures prev.Some? ==> r["prev"] == Link(prev.value)
    ensures next.Some? ==> r["next"] == Link(next.value)
  {
    var withPrev: Context := if prev.Some? then map["prev" := Link(prev.value)] else map[];
    if next.Some? then withPrev[("next") := Link(next.value)] else withPrev
  }

  /** An entry is written to `YYYY/MM/DD/<permalink>/index.html` below
      the output directory. */
  lemma EntryPagePath(d: ValidDateTime, permalink: string)
    ensures var url := EntryUrl(d, permalink);
      NormalizeTarget(url) == url[1..] + IndexFile
  {
    var url := EntryUrl(d, permalink);
    var p := url[1..];
    assert url == Slashes(1) + p;
    assert p[0] == DayStamp(d, '/')[..4][0];
    assert p[|p| - 1] == '/';
    NormalizeDirectory(1, p);
  }

  /** `_write_index`, one page. */
  function IndexPageOut(conf: Config, p: IndexPage<Entry>): Page {
    Page(NormalizeTarget(p.path),
         GetContext(conf, map["entries" := EntryList(p.entries)] + Links(p.prev, p.next)),
         IndexTemplate)
  }

  /** A loop that raises at its first failing step: the results of the
      steps before it, and its error. */
  function MapUntilFailure<A, B, E>(xs: seq<A>, f: A -> Result<B, E>): (r: (seq<B>, Option<E>))
    ensures |r.0| <= |xs|
    ensures forall i :: 0 <= i < |r.0| ==> f(xs[i]) == Success(r.0[i])
    ensures r.1.None? <==> |r.0| == |xs|
    ensures r.1.Some? ==> f(xs[|r.0|]) == Failure(r.1.value)
  {
    if xs == [] then ([], None)
    else
      var first := f(xs[0]);
      if first.Failure? then ([], Some(first.error))
      else
        var rest := MapUntilFailure(xs[1..], f);
        assert forall i :: 1 <= i < |rest.0| + 1 ==> xs[i] == xs[1..][i - 1];
        ([first.value] + rest.0, rest.1)
  }

  /** `BlogEntry(c)` for each content in turn, as `_write_entries` builds them. */
  function BuildAll(cs: seq<Content>, sha1: seq<byte> -> Digest): (r: (seq<Entry>, Option<Error>))
    ensures |r.0| <= |cs|
    ensures forall i :: 0 <= i < |r.0| ==> BuildEntry(cs[i], sha1) == Success(r.0[i])
    ensures r.1.None? <==> |r.0| == |cs|
    ensures r.1.Some? ==> BuildEntry(cs[|r.0|], sha1) == Failure(r.1.value)
  {
    MapUntilFailure(cs, c => BuildEntry(c, sha1))
  }

  function Reverse<T>(s: seq<T>): (r: seq<T>)
    ensures |r| == |s| && forall i :: 0 <= i < |s| ==> r[i] == s[|s| - 1 - i]
  {
    if s == [] then [] else Reverse(s[1..]) + [s[0]]
  }

  /** What a build produced: the pages written, in order, and the error
      that stopped it, if any. */
  datatype Build = Build(pages: seq<Page>, error: Option<Error>)

  /** The contents as they are published: each parsed, then sorted oldest
      first, stably. */
  function Published(contents: seq<Content>, render: string -> string): (r: seq<Content>)
    ensures |r| == |contents| && SortedByDate(r)
    ensures multiset(r) == multiset(seq(|contents|, i requires 0 <= i < |contents| => Parse(contents[i], render)))
    ensures forall i :: 0 <= i < |r| ==> r[i].parsed.Some?
  {
    var parsed := seq(|contents|, i requires 0 <= i < |contents| => Parse(contents[i], render));
    var r := SortByDate(parsed);
    assert |r| == |contents| by {
      assert |multiset(r)| == |multiset(parsed)|;
    }
    forall i | 0 <= i < |r| ensures r[i].parsed.Some? {
      assert r[i] in multiset(parsed);
    }
    r
  }

  function EntryPages(conf: Config, entries: seq<Entry>): (r: seq<Page>)
    ensures |r| == |entries| && forall i :: 0 <= i < |r| ==> r[i] == EntryPage(conf, entries[i])
  {
    seq(|entries|, i requires 0 <= i < |entries| => EntryPage(conf, entries[i]))
  }

  function IndexPagesOut(conf: Config, index: seq<IndexPage<Entry>>): (r: seq<Page>)
    ensures |r| == |index| && forall i :: 0 <= i < |r| ==> r[i] == IndexPageOut(conf, index[i])
  {
    seq(|index|, i requires 0 <= i < |index| => IndexPageOut(conf, index[i]))
  }

  /** `Blog.write`. The contents are parsed (the renderer and the digest
      are parameters), sorted oldest first, and an entry page is written
      for each; the index pages follow when every entry could be built.
      The index is built from the same contents in reverse, and an entry
      depends on its content alone, so the entries built for the entry
      pages are reused. */
  function Write(
    contents: seq<Content>, render: string -> string, sha1: seq<byte> -> Digest, conf: Config): (b: Build)
  {
    var built := BuildAll(Published(contents, render), sha1);
    if built.1.Some? then Build(EntryPages(conf, built.0), built.1)
    else Build(EntryPages(conf, built.0) + IndexPagesOut(conf, IndexPages(Reverse(built.0))), None)
  }

  /** A complete build writes one page per content, oldest first, each at
      its entry's URL, then one index page per started block of ten,
      newest first, at its own path. */
  lemma WriteComplete(contents: seq<Content>, render: string -> string, sha1: seq<byte> -> Digest, conf: Config)
    requires Write(contents, render, sha1, conf).error.None?
    ensures var b, cs := Write(contents, render, sha1, conf), Published(contents, render);
      var index := IndexPages(Reverse(BuildAll(cs, sha1).0));
      && |b.pages| == |contents| + |index|
      && |index| == (|contents| + PerPage - 1) / PerPage
      && (forall i :: 0 <= i < |contents| ==>
            && BuildEntry(cs[i], sha1).Success?
            && b.pages[i] == EntryPage(conf, BuildEntry(cs[i], sha1).value))
      && b.pages[|contents|..] == IndexPagesOut(conf, index)
      && (forall j :: 0 <= j < |index| ==>
            b.pages[|contents|..][j].template == IndexTemplate && b.pages[|contents|..][j].path == IndexPath(j))
  {
    WriteCount(contents, render, sha1, conf);
    WriteEntryPages(contents, render, sha1, conf);
    WriteIndexPages(contents, render, sha1, conf);
    WriteIndexPaths(contents, render, sha1, conf);
  }

  /** How many pages a complete build writes. */
  lemma WriteCount(contents: seq<Content>, render: string -> string, sha1: seq<byte> -> Digest, conf: Config)
    requires Write(contents, render, sha1, conf).error.None?
    ensures var b, cs := Write(contents, render, sha1, conf), Published(contents, render);
      var index := IndexPages(Reverse(BuildAll(cs, sha1).0));
      && |b.pages| == |contents| + |index|
      && |index| == (|contents| + PerPage - 1) / PerPage
  {
    CompletePages(contents, render, sha1, conf);
    PageCount(Reverse(BuildAll(Published(contents, render), sha1).0));
  }

  /** The first pages of a complete build are the entry pages. */
  lemma WriteEntryPages(contents: seq<Content>, render: string -> string, sha1: seq<byte> -> Digest, conf: Config)
    requires Write(contents, render, sha1, conf).error.None?
    ensures var b, cs := Write(contents, render, sha1, conf), Published(contents, render);
      forall i :: 0 <= i < |contents| ==>
        && BuildEntry(cs[i], sha1).Success?
        && b.pages[i] == EntryPage(conf, BuildEntry(cs[i], sha1).value)
  {
    var cs := Published(contents, render);
    var entries := BuildAll(cs, sha1).0;
    var pages := Write(contents, render, sha1, conf).pages;
    CompletePages(contents, render, sha1, conf);
    EntryHalf(conf, entries, IndexPagesOut(conf, IndexPages(Reverse(entries))), pages);
    EntriesBuilt(conf, cs, sha1, entries, pages);
  }

  /** The pages after the entry pages are the index pages, in order. */
  lemma WriteIndexPages(contents: seq<Content>, render: string -> string, sha1: seq<byte> -> Digest, conf: Config)
    requires Write(contents, render, sha1, conf).error.None?
    ensures var b, cs := Write(contents, render, sha1, conf), Published(contents, render);
      |contents| <= |b.pages| && b.pages[|contents|..] == IndexPagesOut(conf, IndexPages(Reverse(BuildAll(cs, sha1).0)))
  {
    var entries := BuildAll(Published(contents, render), sha1).0;
    CompletePages(contents, render, sha1, conf);
    AppendDrop(EntryPages(conf, entries), IndexPagesOut(conf, IndexPages(Reverse(entries))));
  }

  /** Index page `j` is written from the index template at `IndexPath(j)`. */
  lemma WriteIndexPaths(contents: seq<Content>, render: string -> string, sha1: seq<byte> -> Digest, conf: Config)
    requires Write(contents, render, sha1, conf).error.None?
    ensures var b := Write(contents, render, sha1, conf);
      |contents| <= |b.pages| &&
      forall j :: 0 <= j < |b.pages| - |contents| ==>
        b.pages[|contents|..][j].template == IndexTemplate && b.pages[|contents|..][j].path == IndexPath(j)
  {
    WriteIndexPages(contents, render, sha1, conf);
    IndexPagesAt(conf, Reverse(BuildAll(Published(contents, render), sha1).0));
  }

  /** A complete build writes the entry pages, then the index pages. */
  lemma CompletePages(contents: seq<Content>, render: string -> string, sha1: seq<byte> -> Digest, conf: Config)
    requires Write(contents, render, sha1, conf).error.None?
    ensures var built := BuildAll(Published(contents, render), sha1);
      && |built.0| == |contents|
      && Write(contents, render, sha1, conf).pages
         == EntryPages(conf, built.0) + IndexPagesOut(conf, IndexPages(Reverse(built.0)))
  {
  }

  /** Where the entry pages sit, and the pages after them. */
  lemma EntryHalf(conf: Config, entries: seq<Entry>, out: seq<Page>, pages: seq<Page>)
    requires pages == EntryPages(conf, entries) + out
    ensures |pages| == |entries| + |out|
    ensures forall i :: 0 <= i < |entries| ==> pages[i] == EntryPage(conf, entries[i])
  {
    forall i | 0 <= i < |entries| ensures pages[i] == EntryPage(conf, entries[i]) {
      assert pages[i] == EntryPages(conf, entries)[i];
    }
  }

  /** The entry pages are the pages of the entries built from the contents. */
  lemma EntriesBuilt(conf: Config, cs: seq<Content>, sha1: seq<byte> -> Digest, entries: seq<Entry>, pages: seq<Page>)
    requires |entries| == |cs| <= |pages|
    requires forall i :: 0 <= i < |entries| ==> BuildEntry(cs[i], sha1) == Success(entries[i])
    requires forall i :: 0 <= i < |entries| ==> pages[i] == EntryPage(conf, entries[i])
    ensures forall i :: 0 <= i < |cs| ==>
      BuildEntry(cs[i], sha1).Success? && pages[i] == EntryPage(conf, BuildEntry(cs[i], sha1).value)
  {
    forall i | 0 <= i < |cs|
      ensures BuildEntry(cs[i], sha1).Success? && pages[i] == EntryPage(conf, BuildEntry(cs[i], sha1).value)
    {
      assert BuildEntry(cs[i], sha1) == Success(entries[i]);
    }
  }

  /** What follows a prefix is the rest. */
  lemma AppendDrop<T>(xs: seq<T>, ys: seq<T>)
    ensures (xs + ys)[|xs|..] == ys
  {
  }

  /** Index page `i` is written from the index template at `IndexPath(i)`. */
  lemma IndexPagesAt(conf: Config, newest: seq<Entry>)
    ensures var out := IndexPagesOut(conf, IndexPages(newest));
      forall i :: 0 <= i < |out| ==> out[i].template == IndexTemplate && out[i].path == IndexPath(i)
  {
    var index := IndexPages(newest);
    var out := IndexPagesOut(conf, index);
    forall i | 0 <= i < |out| ensures out[i].template == IndexTemplate && out[i].path == IndexPath(i) {
      PageContents(newest, i);
      IndexPathIsFile(i);
    }
  }

  /** Index paths are written where they say. */
  lemma IndexPathIsFile(i: nat)
    ensures NormalizeTarget(IndexPath(i)) == IndexPath(i)
  {
    var p := IndexPath(i);
    assert p[|p| - 1] == p[|p| - 5..][4] == 'l';
    assert Slashes(0) + p == p;
    NormalizeFile(0, p);
  }

  /** A build that fails stops at the first content, oldest first, whose
      entry cannot be built: only the entry pages before it are written,
      and no index page. */
  lemma WriteStops(contents: seq<Content>, render: string -> string, sha1: seq<byte> -> Digest, conf: Config)
    requires Write(contents, render, sha1, conf).error.Some?
    ensures var b := Write(contents, render, sha1, conf);
      var cs := Published(contents, render);
      && |b.pages| < |cs|
      && BuildEntry(cs[|b.pages|], sha1) == Failure(b.error.value)
      && (forall i :: 0 <= i < |b.pages| ==>
            BuildEntry(cs[i], sha1).Success? && b.pages[i] == EntryPage(conf, BuildEntry(cs[i], sha1).value))
  {
  }

  /** The analytics id a page's context holds. */
  predicate HasAnalytics(conf: Config, p: Page) {
    AnalyticsKey in p.context && p.context[AnalyticsKey] == Plain(Setting(conf, AnalyticsSetting))
  }

  lemma EntryPageAnalytics(conf: Config, e: Entry)
    ensures HasAnalytics(conf, EntryPage(conf, e))
  {
    var extra: Context := map["entry" := OneEntry(e), "title" := Plain(e.title)];
    assert AnalyticsKey !in extra;
  }

  lemma IndexPageAnalytics(conf: Config, p: IndexPage<Entry>)
    ensures HasAnalytics(conf, IndexPageOut(conf, p))
  {
    var extra: Context := map["entries" := EntryList(p.entries)] + Links(p.prev, p.next);
    assert AnalyticsKey !in extra;
  }

  /** Every page, entry or index, carries the analytics id of the
      configuration: no page key displaces it. */
  lemma AnalyticsEverywhere(contents: seq<Content>, render: string -> string, sha1: seq<byte> -> Digest, conf: Config)
    ensures forall i :: 0 <= i < |Write(contents, render, sha1, conf).pages| ==>
      HasAnalytics(conf, Write(contents, render, sha1, conf).pages[i])
  {
    var entries := BuildAll(Published(contents, render), sha1).0;
    var out := IndexPagesOut(conf, IndexPages(Reverse(entries)));
    forall j | 0 <= j < |out| ensures HasAnalytics(conf, out[j]) {
      IndexPageAnalytics(conf, IndexPages(Reverse(entries))[j]);
    }
    PartsAnalytics(conf, entries, out, Write(contents, render, sha1, conf).pages);
  }

  /** Entry pages followed by pages that already carry the id, or the entry
      pages alone. */
  lemma PartsAnalytics(conf: Config, entries: seq<Entry>, out: seq<Page>, pages: seq<Page>)
    requires pages == EntryPages(conf, entries) + out || pages == EntryPages(conf, entries)
    requires forall j :: 0 <= j < |out| ==> HasAnalytics(conf, out[j])
    ensures forall i :: 0 <= i < |pages| ==> HasAnalytics(conf, pages[i])
  {
    forall i | 0 <= i < |pages| ensures HasAnalytics(conf, pages[i]) {
      if i < |entries| {
        EntryPageAnalytics(conf, entries[i]);
      } else {
        assert pages[i] == out[i - |entries|];
      }
    }
  }

  /** An index page lists its entries and links to its neighbours. */
  lemma IndexPageLinks(conf: Config, p: IndexPage<Entry>)
    ensures var out := IndexPageOut(conf, p);
      && out.context["entries"] == EntryList(p.entries)
      && ("prev" in out.context <==> p.prev.Some?)
      && ("next" in out.context <==> p.next.Some?)
      && (p.prev.Some? ==> out.context["prev"] == Link(p.prev.value))
      && (p.next.Some? ==> out.context["next"] == Link(p.next.value))
  {
  }
}

=== FILE: content.dfy ===
/** `Content`: one source document, split into metadata and body, with its
    required fields checked and its date normalised (`Content.read`,
    `Content.__init__`, `_parse_date`, `parse`). */
module Contents {
  import opened Wrappers
  import opened Text
  import opened Dates
  import opened Values
  import LiteralBlocks

  /** A parsed document. `parsed` is the cached HTML, `None` until `parse()`. */
  datatype Content = Content(
    body: string,
    meta: Metadata,
    title: Value,
    permalink: Value,
    date: ValidDateTime,
    parsed: Option<string>)

  // ---------------------------------------------------------------------
  // Document splitting: r'\s*---(?P<meta>.+?)---\n(?P<content>.+)' with
  // re.MULTILINE | re.DOTALL, anchored at the start by re.match.

  const Fence := "---"
  const Close := "---\n"

  /** `---\n` starts at `k`. */
  predicate CloseAt(t: string, k: nat) {
    k + |Close| <= |t| && t[k..k + |Close|] == Close
  }

  /** `---\n` starts at `k` and at least one character follows it. */
  predicate ClosesAt(t: string, k: nat) {
    CloseAt(t, k) && k + |Close| < |t|
  }

  /** The lazy `.+?`: the first position `k >= m` where the metadata can end. */
  function FindClose(t: string, m: nat): (r: Option<nat>)
    ensures r.Some? ==> m <= r.value && ClosesAt(t, r.value)
    ensures r.Some? ==> forall k :: m <= k < r.value ==> !ClosesAt(t, k)
    ensures r.None? ==> forall k :: m <= k ==> !ClosesAt(t, k)
    decreases |t| - m
  {
    if m + |Close| >= |t| then None
    else if CloseAt(t, m) then Some(m)
    else FindClose(t, m + 1)
  }

  /** `---\n` does not start anywhere in `meta` after its first character,
      so the lazy metadata group cannot stop early. */
  predicate ShortestMeta(meta: string) {
    forall k :: 1 <= k <= |meta| ==> !CloseAt(meta, k)
  }

  /** The layout the pattern accepts. */
  function Document(leading: string, meta: string, body: string): string {
    leading + Fence + meta + Close + body
  }

  /** The regular-expression match: the metadata text and the body, or
      `None` where `Content.read` raises 'Invalid content format'. Leading
      whitespace is taken greedily; giving any back leaves whitespace where
      `---` must start, so the greedy choice is the only one. */
  function SplitDocument(s: string): (r: Option<(string, string)>)
  {
    var rest := LStrip(s);
    if |rest| < |Fence| || rest[..|Fence|] != Fence then None
    else
      var t := rest[|Fence|..];
      match FindClose(t, 1)
      case None => None
      case Some(k) => Some((t[..k], t[k + |Close|..]))
  }

  /** Every accepted document has the layout, with a non-empty metadata
      text that stops at the first possible `---\n` and a non-empty body. */
  lemma SplitDocumentSound(s: string)
    requires SplitDocument(s).Some?
    ensures var (meta, body) := SplitDocument(s).value;
      && |meta| >= 1 && |body| >= 1 && ShortestMeta(meta)
      && s == Document(s[..|s| - |LStrip(s)|], meta, body)
      && AllSpace(s[..|s| - |LStrip(s)|])
  {
    var rest := LStrip(s);
    var n := |s| - |rest|;
    var t := rest[|Fence|..];
    var k := FindClose(t, 1).value;
    assert s == s[..n] + rest;
    SoundLayout(s, s[..n], rest, t, k);
  }

  /** The pieces the match found put the document back together. */
  lemma SoundLayout(s: string, lead: string, rest: string, t: string, k: nat)
    requires s == lead + rest && |Fence| <= |rest| && rest[..|Fence|] == Fence && t == rest[|Fence|..]
    requires 1 <= k && ClosesAt(t, k)
    requires forall j :: 1 <= j < k ==> !ClosesAt(t, j)
    ensures ShortestMeta(t[..k]) && |t[k + |Close|..]| >= 1
    ensures s == Document(lead, t[..k], t[k + |Close|..])
  {
    MetaBeforeClose(t, k);
    assert rest == rest[..|Fence|] + t;
    Reassemble(s, lead, rest, t, t[..k], t[k + |Close|..]);
  }

  lemma Reassemble(s: string, lead: string, rest: string, t: string, meta: string, body: string)
    requires s == lead + rest && rest == Fence + t && t == meta + Close + body
    ensures s == Document(lead, meta, body)
  {
  }

  /** The text before the first possible `---\n` is a shortest metadata. */
  lemma MetaBeforeClose(t: string, k: nat)
    requires 1 <= k && ClosesAt(t, k)
    requires forall j :: 1 <= j < k ==> !ClosesAt(t, j)
    ensures t == t[..k] + Close + t[k + |Close|..]
    ensures ShortestMeta(t[..k])
  {
    var meta := t[..k];
    assert t[k..k + |Close|] == Close;
    assert t == t[..k] + t[k..k + |Close|] + t[k + |Close|..];
    forall j | 1 <= j <= |meta| ensures !CloseAt(meta, j) {
      if CloseAt(meta, j) {
        assert meta[j..j + |Close|] == t[j..j + |Close|];
        assert ClosesAt(t, j);
      }
    }
  }

  /** A `---\n` cannot straddle the end of the metadata: the terminator's
      own dashes would have to be the newline. */
  lemma NoEarlyClose(meta: string, body: string, j: nat)
    requires ShortestMeta(meta) && 1 <= j < |meta|
    ensures !ClosesAt(meta + Close + body, j)
  {
    var t := meta + Close + body;
    if j + |Close| <= |meta| {
      assert t[j..j + |Close|] == meta[j..j + |Close|];
      assert !CloseAt(meta, j);
    } else {
      assert t[j + |Close| - 1] == Close[j + |Close| - 1 - |meta|] == '-';
    }
  }

  /** Every document with the layout is accepted, and splits back into its
      own metadata text and body. */
  lemma SplitDocumentComplete(leading: string, meta: string, body: string)
    requires AllSpace(leading) && |meta| >= 1 && |body| >= 1 && ShortestMeta(meta)
    ensures SplitDocument(Document(leading, meta, body)) == Some((meta, body))
  {
    var t := meta + Close + body;
    var s := Document(leading, meta, body);
    assert s == leading + (Fence + t);
    LStripPastSpaces(leading, Fence + t);
    MetaCloses(meta, body);
    SplitSteps(s, t, |meta|);
  }

  /** The match after the leading whitespace: the fence, then the metadata
      up to the first close. */
  lemma SplitSteps(s: string, t: string, k: nat)
    requires LStrip(s) == Fence + t && FindClose(t, 1) == Some(k)
    ensures SplitDocument(s) == Some((t[..k], t[k + |Close|..]))
  {
    assert (Fence + t)[..|Fence|] == Fence;
    assert (Fence + t)[|Fence|..] == t;
  }

  /** Metadata with no earlier close ends where its own close starts. */
  lemma MetaCloses(meta: string, body: string)
    requires |meta| >= 1 && |body| >= 1 && ShortestMeta(meta)
    ensures var t := meta + Close + body;
      FindClose(t, 1) == Some(|meta|) && t[..|meta|] == meta && t[|meta| + |Close|..] == body
  {
    var t := meta + Close + body;
    assert t[|meta|..|meta| + |Close|] == Close;
    assert ClosesAt(t, |meta|);
    forall j | 1 <= j < |meta| ensures !ClosesAt(t, j) {
      NoEarlyClose(meta, body, j);
    }
    FindCloseFirst(t, 1, |meta|);
    assert t[..|meta|] == meta;
    assert t[|meta| + |Close|..] == body;
  }

  lemma {:induction false} FindCloseFirst(t: string, m: nat, k: nat)
    requires m <= k && ClosesAt(t, k)
    requires forall j :: m <= j < k ==> !ClosesAt(t, j)
    ensures FindClose(t, m) == Some(k)
    decreases k - m
  {
    if m < k {
      FindCloseFirst(t, m + 1, k);
    }
  }

  // ---------------------------------------------------------------------
  // Dates

  /** `_parse_date`: a datetime passes through; a string is tried with
      `strptime('%Y-%m-%d %H:%M:%S')`, then with the RFC 2822 parser
      (section 3.3 of RFC 2822) `parsedate`, whose first six fields are
      handed to `datetime(...)`. `strptime` takes its argument as a C
      string: a non-string raises TypeError; a unicode string is first
      encoded to ASCII, and a non-ASCII one raises UnicodeEncodeError, a
      ValueError that sends it to the fallback; an ASCII string holding a
      NUL raises TypeError. The `except ValueError` does not catch TypeError. */
  function ParseDate(v: Value, parsedate: string -> Option<RawFields>): Result<ValidDateTime, Error> {
    if v.VDateTime? then Success(v.dt)
    else if !v.VStr? then Failure(DateNotAString)
    else if NulRefused(v.s) then Failure(DateWithNul)
    else if StrictParses(v.s) then Success(ParseStrict(v.s).value)
    else Fallback(v.s, parsedate)
  }

  /** The `except ValueError` branch: `parsedate`, then `datetime(*dt[:6])`. */
  function Fallback(s: string, parsedate: string -> Option<RawFields>): Result<ValidDateTime, Error> {
    match parsedate(s)
    case None => Failure(InvalidDate(s))
    case Some(f) => if FromFields(f).Some? then Success(FromFields(f).value) else Failure(DateOutOfRange)
  }

  /** `strptime` raises TypeError: the text encodes to ASCII, so no
      UnicodeEncodeError comes first, and it holds a NUL. */
  predicate NulRefused(s: string) {
    AsciiEncode(s).Some? && '\0' in s
  }

  /** `strptime` returns a datetime rather than raising. */
  predicate StrictParses(s: string) {
    AsciiEncode(s).Some? && '\0' !in s && ParseStrict(s).Some?
  }

  /** A datetime value is kept as is; a string in the strict layout reads
      back to exactly its fields whatever the fallback parser would say. */
  lemma ParseDateStrict(d: ValidDateTime, parsedate: string -> Option<RawFields>)
    ensures ParseDate(VDateTime(d), parsedate) == Success(d)
    ensures ParseDate(VStr(Format(d)), parsedate) == Success(d)
  {
    ParseStrictFormat(d);
    FormatIsCString(d);
    StrictString(Format(d), d, parsedate);
  }

  lemma StrictString(s: string, d: ValidDateTime, parsedate: string -> Option<RawFields>)
    requires AsciiEncode(s).Some? && '\0' !in s && ParseStrict(s) == Some(d)
    ensures ParseDate(VStr(s), parsedate) == Success(d)
  {
  }

  /** The TypeError is raised exactly for ASCII strings holding a NUL;
      a non-ASCII string always goes to the RFC 2822 parser; 'Invalid
      date' is raised exactly for the other strings that neither the
      strict layout nor the RFC 2822 parser accept; the fallback's fields
      are used exactly when `strptime` raises a ValueError. */
  lemma ParseDateErrors(v: Value, parsedate: string -> Option<RawFields>)
    ensures ParseDate(v, parsedate) == Failure(DateWithNul) <==>
      v.VStr? && '\0' in v.s && forall i :: 0 <= i < |v.s| ==> v.s[i] as int < 128
    ensures ParseDate(v, parsedate) == Failure(DateNotAString) <==> v.VNone? || v.VOther?
    ensures (exists s :: ParseDate(v, parsedate) == Failure(InvalidDate(s))) <==>
      v.VStr? && !NulRefused(v.s) && !StrictParses(v.s) && parsedate(v.s).None?
    ensures v.VStr? && !NulRefused(v.s) && !StrictParses(v.s) && parsedate(v.s).None? ==>
      ParseDate(v, parsedate) == Failure(InvalidDate(v.s))
    ensures v.VStr? && (exists i :: 0 <= i < |v.s| && v.s[i] as int >= 128) ==>
      ParseDate(v, parsedate) == Fallback(v.s, parsedate)
    ensures v.VStr? && !NulRefused(v.s) && !StrictParses(v.s) && parsedate(v.s).Some? ==>
      ParseDate(v, parsedate) == (match FromFields(parsedate(v.s).value)
                                  case Some(d) => Success(d)
                                  case None => Failure(DateOutOfRange))
  {
    if v.VStr? && !NulRefused(v.s) && !StrictParses(v.s) && parsedate(v.s).None? {
      assert ParseDate(v, parsedate) == Failure(InvalidDate(v.s));
    }
  }

  // ---------------------------------------------------------------------
  // Construction

  /** `Content(body, **meta)`: the three required keys are checked in
      order, then the date is normalised. */
  function NewContent(body: string, meta: Metadata, parsedate: string -> Option<RawFields>): (r: Result<Content, Error>)
    ensures r.Success? <==>
      && "title" in meta && "permalink" in meta && "date" in meta
      && ParseDate(meta["date"], parsedate).Success?
    ensures "title" !in meta ==> r == Failure(MissingField("title"))
    ensures "title" in meta && "permalink" !in meta ==> r == Failure(MissingField("permalink"))
    ensures "title" in meta && "permalink" in meta && "date" !in meta ==> r == Failure(MissingField("date"))
    ensures "title" in meta && "permalink" in meta && "date" in meta && ParseDate(meta["date"], parsedate).Failure? ==>
      r == Failure(ParseDate(meta["date"], parsedate).error)
    ensures r.Success? ==>
      && r.value.body == body && r.value.meta == meta
      && r.value.title == meta["title"] && r.value.permalink == meta["permalink"]
      && r.value.date == ParseDate(meta["date"], parsedate).value
      && r.value.parsed == None
  {
    if "title" !in meta then Failure(MissingField("title"))
    else if "permalink" !in meta then Failure(MissingField("permalink"))
    else if "date" !in meta then Failure(MissingField("date"))
    else
      var date :- ParseDate(meta["date"], parsedate);
      Success(Content(body, meta, meta["title"], meta["permalink"], date, None))
  }

  /** `Content.read`: split, decode the metadata text (YAML, a parameter
      here), bind it as keyword arguments, construct. A key named like
      one of the constructor's own parameters collides with it. */
  function ReadContent(
    text: string,
    decode: string -> Option<Metadata>,
    parsedate: string -> Option<RawFields>): (r: Result<Content, Error>)
    ensures SplitDocument(text).None? ==> r == Failure(InvalidContentFormat)
    ensures SplitDocument(text).Some? && decode(SplitDocument(text).value.0).None? ==>
      r == Failure(MetadataDecodeError)
    ensures SplitDocument(text).Some? && decode(SplitDocument(text).value.0).Some? ==>
      var meta := decode(SplitDocument(text).value.0).value;
      r == if "content" in meta || "self" in meta then Failure(ArgumentClash)
           else NewContent(SplitDocument(text).value.1, meta, parsedate)
    ensures r.Success? ==>
      && SplitDocument(text).Some?
      && decode(SplitDocument(text).value.0) == Some(r.value.meta)
      && r.value.body == SplitDocument(text).value.1
      && "content" !in r.value.meta && "self" !in r.value.meta
      && "title" in r.value.meta && r.value.title == r.value.meta["title"]
      && "permalink" in r.value.meta && r.value.permalink == r.value.meta["permalink"]
      && "date" in r.value.meta && r.value.parsed == None
  {
    match SplitDocument(text)
    case None => Failure(InvalidContentFormat)
    case Some((metaText, body)) =>
      match decode(metaText)
      case None => Failure(MetadataDecodeError)
      case Some(meta) =>
        if "content" in meta || "self" in meta then Failure(ArgumentClash)
        else NewContent(body, meta, parsedate)
  }

  /** Writing a document in the delimiter layout and reading it back
      recovers its body, title, permalink and date. */
  lemma ReadContentRoundTrip(
    leading: string, metaText: string, body: string, meta: Metadata, d: ValidDateTime,
    decode: string -> Option<Metadata>, parsedate: string -> Option<RawFields>)
    requires AllSpace(leading) && |metaText| >= 1 && |body| >= 1 && ShortestMeta(metaText)
    requires decode(metaText) == Some(meta)
    requires "title" in meta && "permalink" in meta && "content" !in meta && "self" !in meta
    requires "date" in meta && meta["date"] in {VDateTime(d), VStr(Format(d))}
    ensures var r := ReadContent(Document(leading, metaText, body), decode, parsedate);
      && r.Success?
      && r.value.body == body && r.value.title == meta["title"]
      && r.value.permalink == meta["permalink"] && r.value.date == d
  {
    SplitDocumentComplete(leading, metaText, body);
    ParseDateStrict(d, parsedate);
  }

  // ---------------------------------------------------------------------
  // Rendering, cached

  /** `parse()`: the first call renders the body (reStructuredText to an
      HTML fragment, a parameter here) and rewrites its literal blocks;
      later calls change nothing. */
  function Parse(c: Content, render: string -> string): (r: Content)
    ensures r.parsed.Some?
    ensures c.parsed.Some? ==> r == c
    ensures c.parsed.None? ==> r.parsed == Some(LiteralBlocks.Rewrite(render(c.body)))
    ensures r.(parsed := c.parsed) == c
  {
    if c.parsed.Some? then c else c.(parsed := Some(LiteralBlocks.Rewrite(render(c.body))))
  }

  /** The rewrite runs once: parsing again, even with another renderer,
      leaves the content as the first parse left it. */
  lemma ParseOnce(c: Content, render: string -> string, again: string -> string)
    ensures Parse(Parse(c, render), again) == Parse(c, render)
  {
  }
}

=== FILE: dates.dfy ===
/** Calendar timestamps as Python's naive `datetime` sees them, the
    `str(datetime)` layout, and `datetime.strptime(s, '%Y-%m-%d %H:%M:%S')`. */
module Dates {
  import opened Wrappers
  import opened Text

  /** A naive `datetime` to the second (the pipeline never sets microseconds). */
  datatype DateTime = DateTime(year: int, month: int, day: int, hour: int, minute: int, second: int)

  predicate IsLeapYear(y: int) {
    y % 4 == 0 && (y % 100 != 0 || y % 400 == 0)
  }

  function DaysInMonth(y: int, m: int): (n: int)
    requires 1 <= m <= 12
    ensures 28 <= n <= 31
  {
    if m == 2 then (if IsLeapYear(y) then 29 else 28)
    else if m == 4 || m == 6 || m == 9 || m == 11 then 30
    else 31
  }

  /** The ranges the `datetime` constructor enforces (MINYEAR 1, MAXYEAR 9999);
      any other field tuple makes it raise ValueError. */
  predicate Valid(d: DateTime) {
    && 1 <= d.year <= 9999
    && 1 <= d.month <= 12
    && 1 <= d.day <= DaysInMonth(d.year, d.month)
    && 0 <= d.hour < 24
    && 0 <= d.minute < 60
    && 0 <= d.second < 60
  }

  type ValidDateTime = d: DateTime | Valid(d) witness DateTime(1, 1, 1, 0, 0, 0)

  /** `a < b` on naive datetimes: field by field, most significant first. */
  predicate Before(a: DateTime, b: DateTime) {
    if a.year != b.year then a.year < b.year
    else if a.month != b.month then a.month < b.month
    else if a.day != b.day then a.day < b.day
    else if a.hour != b.hour then a.hour < b.hour
    else if a.minute != b.minute then a.minute < b.minute
    else a.second < b.second
  }

  /** `Before` is a strict total order, so sorting by it is well defined. */
  lemma BeforeIsStrictTotalOrder(a: DateTime, b: DateTime, c: DateTime)
    ensures !Before(a, a)
    ensures Before(a, b) ==> !Before(b, a)
    ensures Before(a, b) && Before(b, c) ==> Before(a, c)
    ensures a != b ==> Before(a, b) || Before(b, a)
  {
  }

  /** `a`, `b` and `c`, with `sep` between them. */
  function Triple(a: string, b: string, c: string, sep: char): (r: string)
    ensures |r| == |a| + |b| + |c| + 2
    ensures r[..|a|] == a && r[|a|] == sep && r[|a| + 1..|a| + 1 + |b|] == b
    ensures r[|a| + 1 + |b|] == sep && r[|a| + |b| + 2..] == c
  {
    var r := a + [sep] + b + [sep] + c;
    assert r[|a| + 1..|a| + 1 + |b|] == b;
    r
  }

  /** `'%04d-%02d-%02d'` with `sep` for the dashes: year, month and day,
      zero-padded. */
  function DayStamp(d: ValidDateTime, sep: char): (r: string)
    ensures |r| == 10 && r[4] == sep && r[7] == sep
    ensures r[..4] == ZeroPad(d.year, 4) && r[5..7] == ZeroPad(d.month, 2) && r[8..] == ZeroPad(d.day, 2)
  {
    Pow10Four();
    Triple(ZeroPad(d.year, 4), ZeroPad(d.month, 2), ZeroPad(d.day, 2), sep)
  }

  /** `'%02d:%02d:%02d'`: hour, minute and second, zero-padded. */
  function Clock(d: ValidDateTime): (r: string)
    ensures |r| == 8 && r[2] == ':' && r[5] == ':'
    ensures r[..2] == ZeroPad(d.hour, 2) && r[3..5] == ZeroPad(d.minute, 2) && r[6..] == ZeroPad(d.second, 2)
  {
    Pow10Four();
    Triple(ZeroPad(d.hour, 2), ZeroPad(d.minute, 2), ZeroPad(d.second, 2), ':')
  }

  /** `str(d)` for a datetime without microseconds: `YYYY-MM-DD HH:MM:SS`. */
  function Format(d: ValidDateTime): string {
    DayStamp(d, '-') + " " + Clock(d)
  }

  /** The day stamp decides the calendar day, whatever the separator. */
  lemma DayStampInjective(a: ValidDateTime, b: ValidDateTime, sep: char, sep': char)
    ensures DayStamp(a, sep) == DayStamp(b, sep') <==>
      sep == sep' && a.year == b.year && a.month == b.month && a.day == b.day
  {
    var s, t := DayStamp(a, sep), DayStamp(b, sep');
    if s == t {
      assert s[..4] == t[..4] && s[5..7] == t[5..7] && s[8..] == t[8..];
    }
  }

  // ---------------------------------------------------------------------
  // strptime(s, '%Y-%m-%d %H:%M:%S')
  //
  // Python 2.7 compiles the format into one regular expression, with each
  // directive an alternation of one- or two-character alternatives, the
  // space a `\s+`, and requires the match to consume the whole string
  // ("unconverted data remains" otherwise). Every alternative that is
  // shorter than an earlier one leaves a digit where the next literal,
  // `\s+` or the end is expected, so backtracking into it never helps: the
  // first alternative that matches decides, exactly as modelled here.

  /** A character class `[lo-hi]`. */
  datatype CharRange = CharRange(lo: char, hi: char)

  /** One alternative: a fixed sequence of character classes. */
  type Alternative = seq<CharRange>

  const AnyDigit := CharRange('0', '9')

  function Only(c: char): CharRange {
    CharRange(c, c)
  }

  /** `%Y`: `\d\d\d\d`. */
  const YearDirective: seq<Alternative> := [[AnyDigit, AnyDigit, AnyDigit, AnyDigit]]
  /** `%m`: `1[0-2]|0[1-9]|[1-9]`. */
  const MonthDirective: seq<Alternative> :=
    [[Only('1'), CharRange('0', '2')], [Only('0'), CharRange('1', '9')], [CharRange('1', '9')]]
  /** `%d`: `3[0-1]|[1-2]\d|0[1-9]|[1-9]| [1-9]`. */
  const DayDirective: seq<Alternative> :=
    [[Only('3'), CharRange('0', '1')], [CharRange('1', '2'), AnyDigit], [Only('0'), CharRange('1', '9')],
     [CharRange('1', '9')], [Only(' '), CharRange('1', '9')]]
  /** `%H`: `2[0-3]|[0-1]\d|\d`. */
  const HourDirective: seq<Alternative> :=
    [[Only('2'), CharRange('0', '3')], [CharRange('0', '1'), AnyDigit], [AnyDigit]]
  /** `%M`: `[0-5]\d|\d`. */
  const MinuteDirective: seq<Alternative> := [[CharRange('0', '5'), AnyDigit], [AnyDigit]]
  /** `%S`: `6[0-1]|[0-5]\d|\d`. */
  const SecondDirective: seq<Alternative> :=
    [[Only('6'), CharRange('0', '1')], [CharRange('0', '5'), AnyDigit], [AnyDigit]]

  predicate MatchesAt(s: string, p: nat, alt: Alternative) {
    p + |alt| <= |s| && forall i :: 0 <= i < |alt| ==> alt[i].lo <= s[p + i] <= alt[i].hi
  }

  /** Alternative `k` matches at `p` and none before it does. */
  predicate FirstMatching(s: string, p: nat, alts: seq<Alternative>, k: nat) {
    k < |alts| && MatchesAt(s, p, alts[k]) && forall j :: 0 <= j < k ==> !MatchesAt(s, p, alts[j])
  }

  /** The length matched by the first alternative that matches at `p`. */
  function FirstMatch(s: string, p: nat, alts: seq<Alternative>): (r: Option<nat>)
    ensures r.Some? ==> exists k: nat :: FirstMatching(s, p, alts, k) && r.value == |alts[k]|
    ensures r.None? <==> forall k :: 0 <= k < |alts| ==> !MatchesAt(s, p, alts[k])
  {
    if alts == [] then None
    else if MatchesAt(s, p, alts[0]) then Some(|alts[0]|)
    else
      var r := FirstMatch(s, p, alts[1..]);
      assert forall k :: 1 <= k < |alts| ==> alts[k] == alts[1..][k - 1];
      if r.Some? then
        var k: nat :| FirstMatching(s, p, alts[1..], k) && r.value == |alts[1..][k]|;
        assert FirstMatching(s, p, alts, k + 1);
        r
      else r
  }

  /** `int(text)` on the text a directive matched; the space of the ` [1-9]`
      day alternative reads as a leading zero, as `int()` ignores it. */
  function TextValue(t: string): nat {
    if t == [] then 0
    else 10 * TextValue(t[..|t| - 1]) + (if IsDigit(t[|t| - 1]) then DigitValue(t[|t| - 1]) else 0)
  }

  lemma {:induction false} TextValueOfDigits(t: string)
    requires AllDigits(t)
    ensures TextValue(t) == DecimalValue(t)
  {
    if t != [] {
      TextValueOfDigits(t[..|t| - 1]);
    }
  }

  /** Where a scan stopped, and the number it read. */
  datatype Scanned = Scanned(value: nat, end: nat)

  function Field(s: string, p: nat, directive: seq<Alternative>): (r: Option<Scanned>)
    ensures r.Some? ==> p < r.value.end <= |s|
  {
    var n :- FirstMatch(s, p, directive);
    if n == 0 || p + n > |s| then None else Some(Scanned(TextValue(s[p..p + n]), p + n))
  }

  function Literal(s: string, p: nat, c: char): (r: Option<nat>)
    ensures r.Some? ==> r.value == p + 1 <= |s|
  {
    if p < |s| && s[p] == c then Some(p + 1) else None
  }

  /** Greedy whitespace run starting at `p`. */
  function SpaceRunEnd(s: string, p: nat): (e: nat)
    requires p <= |s|
    ensures p <= e <= |s|
    ensures forall i :: p <= i < e ==> IsSpace(s[i])
    ensures e == |s| || !IsSpace(s[e])
    decreases |s| - p
  {
    if p < |s| && IsSpace(s[p]) then SpaceRunEnd(s, p + 1) else p
  }

  /** `\s+`. */
  function Spaces(s: string, p: nat): (r: Option<nat>)
    ensures r.Some? ==> p < r.value <= |s|
  {
    if p < |s| && IsSpace(s[p]) then Some(SpaceRunEnd(s, p)) else None
  }

  /** Three numbers read by one half of the format, and where it stopped. */
  datatype Scanned3 = Scanned3(a: nat, b: nat, c: nat, end: nat)

  /** `%Y-%m-%d` from the start of `s`. */
  function ScanDay(s: string): (r: Option<Scanned3>)
  {
    var y :- Field(s, 0, YearDirective);
    var p1 :- Literal(s, y.end, '-');
    var mo :- Field(s, p1, MonthDirective);
    var p2 :- Literal(s, mo.end, '-');
    var d :- Field(s, p2, DayDirective);
    Some(Scanned3(y.value, mo.value, d.value, d.end))
  }

  /** `%H:%M:%S` from `p`. */
  function ScanClock(s: string, p: nat): (r: Option<Scanned3>)
  {
    var h :- Field(s, p, HourDirective);
    var p4 :- Literal(s, h.end, ':');
    var mi :- Field(s, p4, MinuteDirective);
    var p5 :- Literal(s, mi.end, ':');
    var se :- Field(s, p5, SecondDirective);
    Some(Scanned3(h.value, mi.value, se.value, se.end))
  }

  /** `datetime.strptime(s, '%Y-%m-%d %H:%M:%S')`, with `None` for every
      ValueError: no match, unconverted data, or fields `datetime` rejects
      (year 0, a day past the month's end, second 60 or 61). */
  function ParseStrict(s: string): (r: Option<ValidDateTime>)
  {
    var day :- ScanDay(s);
    var p :- Spaces(s, day.end);
    var clock :- ScanClock(s, p);
    var dt := DateTime(day.a, day.b, day.c, clock.a, clock.b, clock.c);
    if clock.end == |s| && Valid(dt) then Some(dt) else None
  }

  /** The six fields `parsedate` reports (its tuple's first six entries),
      before `datetime(*fields)` has checked their ranges. */
  datatype RawFields = RawFields(year: int, month: int, day: int, hour: int, minute: int, second: int)

  /** `datetime(*fields)`: succeeds exactly on in-range fields and keeps them. */
  function FromFields(f: RawFields): (r: Option<ValidDateTime>)
    ensures r.Some? <==> Valid(DateTime(f.year, f.month, f.day, f.hour, f.minute, f.second))
    ensures r.Some? ==> r.value == DateTime(f.year, f.month, f.day, f.hour, f.minute, f.second)
  {
    var d := DateTime(f.year, f.month, f.day, f.hour, f.minute, f.second);
    if Valid(d) then Some(d) else None
  }

  // ---------------------------------------------------------------------
  // Round trip: strptime reads back what str(datetime) writes.

  /** The two digits of `n` stand at `p`. */
  predicate PairAt(s: string, p: nat, n: nat) {
    && p + 2 <= |s| && IsDigit(s[p]) && IsDigit(s[p + 1])
    && s[p] as int == '0' as int + n / 10 && s[p + 1] as int == '0' as int + n % 10
    && TextValue(s[p..p + 2]) == n
  }

  lemma PaddedPair(s: string, p: nat, n: nat)
    requires n < 100 && p + 2 <= |s| && s[p..p + 2] == ZeroPad(n, 2)
    ensures PairAt(s, p, n)
  {
    ZeroPad2(n);
    var t := s[p..p + 2];
    assert t[..1][..0] == [];
    assert TextValue(t[..1]) == DigitValue(t[0]);
    assert t[..|t| - 1] == t[..1];
    assert TextValue(t) == 10 * DigitValue(t[0]) + DigitValue(t[1]);
  }

  /** The first character rules an alternative out. */
  lemma FirstClassFails(s: string, p: nat, alt: Alternative)
    requires |alt| > 0 && p < |s| && !(alt[0].lo <= s[p] <= alt[0].hi)
    ensures !MatchesAt(s, p, alt)
  {
  }

  /** The alternative chosen is the first one that matches. */
  lemma {:induction false} FirstMatchAt(s: string, p: nat, alts: seq<Alternative>, k: nat)
    requires k < |alts| && MatchesAt(s, p, alts[k])
    requires forall j :: 0 <= j < k ==> !MatchesAt(s, p, alts[j])
    ensures FirstMatch(s, p, alts) == Some(|alts[k]|)
    decreases k
  {
    if k > 0 {
      assert forall j :: 0 <= j < k - 1 ==> alts[1..][j] == alts[j + 1];
      FirstMatchAt(s, p, alts[1..], k - 1);
    }
  }

  /** A directive whose `k`-th alternative is the first to match two
      characters at `p` reads them as one field. */
  lemma FieldPair(s: string, p: nat, alts: seq<Alternative>, k: nat, n: nat)
    requires k < |alts| && |alts[k]| == 2 && MatchesAt(s, p, alts[k])
    requires forall j :: 0 <= j < k ==> !MatchesAt(s, p, alts[j])
    requires TextValue(s[p..p + 2]) == n
    ensures Field(s, p, alts) == Some(Scanned(n, p + 2))
  {
    FirstMatchAt(s, p, alts, k);
  }

  lemma MonthField(s: string, p: nat, n: nat)
    requires 1 <= n <= 12 && PairAt(s, p, n)
    ensures Field(s, p, MonthDirective) == Some(Scanned(n, p + 2))
  {
    var alts := MonthDirective;
    if n >= 10 {
      FieldPair(s, p, alts, 0, n);
    } else {
      FirstClassFails(s, p, alts[0]);
      FieldPair(s, p, alts, 1, n);
    }
  }

  lemma DayField(s: string, p: nat, n: nat)
    requires 1 <= n <= 31 && PairAt(s, p, n)
    ensures Field(s, p, DayDirective) == Some(Scanned(n, p + 2))
  {
    var alts := DayDirective;
    if n >= 30 {
      FieldPair(s, p, alts, 0, n);
    } else if n >= 10 {
      FirstClassFails(s, p, alts[0]);
      FieldPair(s, p, alts, 1, n);
    } else {
      FirstClassFails(s, p, alts[0]);
      FirstClassFails(s, p, alts[1]);
      FieldPair(s, p, alts, 2, n);
    }
  }

  lemma HourField(s: string, p: nat, n: nat)
    requires n < 24 && PairAt(s, p, n)
    ensures Field(s, p, HourDirective) == Some(Scanned(n, p + 2))
  {
    var alts := HourDirective;
    if n >= 20 {
      FieldPair(s, p, alts, 0, n);
    } else {
      FirstClassFails(s, p, alts[0]);
      FieldPair(s, p, alts, 1, n);
    }
  }

  lemma MinuteField(s: string, p: nat, n: nat)
    requires n < 60 && PairAt(s, p, n)
    ensures Field(s, p, MinuteDirective) == Some(Scanned(n, p + 2))
  {
    FieldPair(s, p, MinuteDirective, 0, n);
  }

  lemma SecondField(s: string, p: nat, n: nat)
    requires n < 60 && PairAt(s, p, n)
    ensures Field(s, p, SecondDirective) == Some(Scanned(n, p + 2))
  {
    var alts := SecondDirective;
    FirstClassFails(s, p, alts[0]);
    FieldPair(s, p, alts, 1, n);
  }

  lemma Pow10Four()
    ensures Pow10(2) == 100 && Pow10(4) == 10000
  {
    assert Pow10(1) == 10;
    assert Pow10(3) == 1000;
  }

  /** Four digits reading as `n` start the text. */
  predicate YearAt(s: string, n: nat) {
    4 <= |s| && AllDigits(s[..4]) && TextValue(s[..4]) == n
  }

  lemma PaddedYear(s: string, n: nat)
    requires n <= 9999 && 4 <= |s| && s[..4] == ZeroPad(n, 4)
    ensures YearAt(s, n)
  {
    Pow10Four();
    TextValueOfDigits(ZeroPad(n, 4));
  }

  lemma YearField(s: string, n: nat)
    requires YearAt(s, n)
    ensures Field(s, 0, YearDirective) == Some(Scanned(n, 4))
  {
    assert forall i :: 0 <= i < 4 ==> IsDigit(s[..4][i]);
    assert s[0..4] == s[..4];
    assert MatchesAt(s, 0, YearDirective[0]);
  }

  /** The characters `str(d)` puts at each position. */
  predicate LaidOut(s: string, d: ValidDateTime) {
    && |s| == 19 && YearAt(s, d.year)
    && s[4] == '-' && PairAt(s, 5, d.month) && s[7] == '-' && PairAt(s, 8, d.day)
    && s[10] == ' ' && PairAt(s, 11, d.hour) && s[13] == ':' && PairAt(s, 14, d.minute)
    && s[16] == ':' && PairAt(s, 17, d.second)
  }

  lemma ScanDayLaidOut(s: string, d: ValidDateTime)
    requires 10 <= |s| && YearAt(s, d.year)
    requires s[4] == '-' && PairAt(s, 5, d.month) && s[7] == '-' && PairAt(s, 8, d.day)
    ensures ScanDay(s) == Some(Scanned3(d.year, d.month, d.day, 10))
  {
    YearField(s, d.year);
    MonthField(s, 5, d.month);
    DayField(s, 8, d.day);
  }

  lemma ScanClockLaidOut(s: string, p: nat, h: nat, mi: nat, se: nat)
    requires h < 24 && mi < 60 && se < 60
    requires PairAt(s, p, h) && PairAt(s, p + 3, mi) && PairAt(s, p + 6, se)
    requires s[p + 2] == ':' && s[p + 5] == ':'
    ensures ScanClock(s, p) == Some(Scanned3(h, mi, se, p + 8))
  {
    HourField(s, p, h);
    MinuteField(s, p + 3, mi);
    SecondField(s, p + 6, se);
  }

  /** The parse, half by half: the day, one space, the clock, the end. */
  lemma ParseStrictSteps(s: string, d: ValidDateTime)
    requires |s| == 19 && s[10] == ' ' && !IsSpace(s[11])
    requires ScanDay(s) == Some(Scanned3(d.year, d.month, d.day, 10))
    requires ScanClock(s, 11) == Some(Scanned3(d.hour, d.minute, d.second, 19))
    ensures ParseStrict(s) == Some(d)
  {
    assert SpaceRunEnd(s, 11) == 11;
  }

  lemma ParseStrictLaidOut(s: string, d: ValidDateTime)
    requires LaidOut(s, d)
    ensures ParseStrict(s) == Some(d)
  {
    ScanDayLaidOut(s, d);
    ClockOfLaidOut(s, d);
    ParseStrictSteps(s, d);
  }

  /** The clock half of a laid-out string reads its three fields. */
  lemma ClockOfLaidOut(s: string, d: ValidDateTime)
    requires LaidOut(s, d)
    ensures s[10] == ' ' && !IsSpace(s[11])
    ensures ScanClock(s, 11) == Some(Scanned3(d.hour, d.minute, d.second, 19))
  {
    ScanClockLaidOut(s, 11, d.hour, d.minute, d.second);
  }

  lemma DayStampLaidOut(s: string, d: ValidDateTime)
    requires 10 <= |s| && s[..10] == DayStamp(d, '-')
    ensures YearAt(s, d.year) && s[4] == '-' && s[7] == '-'
    ensures PairAt(s, 5, d.month) && PairAt(s, 8, d.day)
  {
    DayStampYear(s, d);
    DayStampPairs(s, d);
  }

  lemma DayStampYear(s: string, d: ValidDateTime)
    requires 10 <= |s| && s[..10] == DayStamp(d, '-')
    ensures YearAt(s, d.year) && s[4] == '-' && s[7] == '-'
  {
    var ds := DayStamp(d, '-');
    assert s[..4] == ds[..4];
    assert s[4] == ds[4] && s[7] == ds[7];
    PaddedYear(s, d.year);
  }

  lemma DayStampPairs(s: string, d: ValidDateTime)
    requires 10 <= |s| && s[..10] == DayStamp(d, '-')
    ensures PairAt(s, 5, d.month) && PairAt(s, 8, d.day)
  {
    var ds := DayStamp(d, '-');
    SubSlice(s, 0, ds, 5, 2);
    PaddedPair(s, 5, d.month);
    SubSlice(s, 0, ds, 8, 2);
    PaddedPair(s, 8, d.day);
  }

  lemma ClockLaidOut(s: string, d: ValidDateTime)
    requires |s| == 19 && s[11..] == Clock(d)
    ensures s[13] == ':' && s[16] == ':'
    ensures PairAt(s, 11, d.hour) && PairAt(s, 14, d.minute) && PairAt(s, 17, d.second)
  {
    var cl := Clock(d);
    SubSlice(s, 11, cl, 0, 2);
    PaddedPair(s, 11, d.hour);
    SubSlice(s, 11, cl, 3, 2);
    PaddedPair(s, 14, d.minute);
    SubSlice(s, 11, cl, 6, 2);
    PaddedPair(s, 17, d.second);
  }

  /** `str(d)` is laid out field by field. */
  lemma FormatLaidOut(d: ValidDateTime)
    ensures LaidOut(Format(d), d)
  {
    var s := Format(d);
    assert s[..10] == DayStamp(d, '-') && s[10] == ' ' && s[11..] == Clock(d);
    PiecesLaidOut(s, d);
  }

  lemma PiecesLaidOut(s: string, d: ValidDateTime)
    requires |s| == 19 && s[..10] == DayStamp(d, '-') && s[10] == ' ' && s[11..] == Clock(d)
    ensures LaidOut(s, d)
  {
    DayStampLaidOut(s, d);
    ClockLaidOut(s, d);
  }

  /** `strptime` with the format `'%Y-%m-%d %H:%M:%S'` reads every
      datetime's `str()` back to exactly the same six fields. */
  lemma ParseStrictFormat(d: ValidDateTime)
    ensures ParseStrict(Format(d)) == Some(d)
  {
    FormatLaidOut(d);
    ParseStrictLaidOut(Format(d), d);
  }

  /** `str(d)` is digits, dashes, colons and a space: it encodes to ASCII
      and holds no NUL, so `strptime` takes it as a C string. */
  lemma FormatIsCString(d: ValidDateTime)
    ensures '\0' !in Format(d)
    ensures AsciiEncode(Format(d)).Some?
  {
    TripleIsCString(ZeroPad(d.year, 4), ZeroPad(d.month, 2), ZeroPad(d.day, 2), '-');
    TripleIsCString(ZeroPad(d.hour, 2), ZeroPad(d.minute, 2), ZeroPad(d.second, 2), ':');
    var s := Format(d);
    assert s == DayStamp(d, '-') + " " + Clock(d);
    assert forall i :: 0 <= i < |s| ==> s[i] as int < 128;
  }

  lemma TripleIsCString(a: string, b: string, c: string, sep: char)
    requires AllDigits(a) && AllDigits(b) && AllDigits(c) && sep != '\0' && sep as int < 128
    ensures '\0' !in Triple(a, b, c, sep)
    ensures forall i :: 0 <= i < |Triple(a, b, c, sep)| ==> Triple(a, b, c, sep)[i] as int < 128
  {
    var r := Triple(a, b, c, sep);
    assert r == a + [sep] + b + [sep] + c;
  }
}

=== FILE: entry.dfy ===
/** `BlogTag` and `BlogEntry`: what a published post is derived from its
    content — its tags, its dated URL and its digest id. */
module Entries {
  import opened Wrappers
  import opened Text
  import opened Dates
  import opened Values
  import opened Contents

  // ---------------------------------------------------------------------
  // Tags

  /** A tag and the page that lists it. */
  datatype Tag = Tag(name: string, url: string)

  const TagsRoot := "/tags/"

  /** `BlogTag(name)`: the listing page is `/tags/<name>/`. */
  function NewTag(name: string): (t: Tag)
    ensures t.name == name
    ensures |t.url| == |name| + 7 && t.url[..6] == TagsRoot && t.url[|t.url| - 1] == '/'
    ensures t.url[6..|t.url| - 1] == name
  {
    Tag(name, TagsRoot + name + "/")
  }

  /** Two tags share a listing page exactly when they have the same name. */
  lemma TagUrlInjective(a: string, b: string)
    ensures NewTag(a).url == NewTag(b).url <==> a == b
  {
    if NewTag(a).url == NewTag(b).url {
      assert a == NewTag(a).url[6..|NewTag(a).url| - 1];
    }
  }

  function Names(tags: seq<Tag>): (r: seq<string>)
    ensures |r| == |tags| && forall i :: 0 <= i < |tags| ==> r[i] == tags[i].name
  {
    seq(|tags|, i requires 0 <= i < |tags| => tags[i].name)
  }

  /** `_get_tags(meta.get('tags', None))`: no tags without a value; a
      string is split at every comma and each piece stripped, empty pieces
      included; any other value has no `split` and raises. */
  function TagsOf(v: Value): (r: Result<seq<Tag>, Error>)
    ensures r == Success([]) <==> v.VNone?
    ensures v.VDateTime? || v.VOther? <==> r == Failure(TagsNotAString)
    ensures v.VStr? ==> r.Success? && |r.value| == multiset(v.s)[','] + 1
    ensures v.VStr? ==> forall i :: 0 <= i < |r.value| ==>
      r.value[i] == NewTag(Strip(Split(v.s, ',')[i]))
  {
    match v
    case VNone => Success([])
    case VStr(s) =>
      var pieces := Split(s, ',');
      Success(seq(|pieces|, i requires 0 <= i < |pieces| => NewTag(Strip(pieces[i]))))
    case _ => Failure(TagsNotAString)
  }

  /** The text of a tag list written by hand: each name with whitespace on
      either side, joined by commas. */
  function TagText(lead: seq<string>, names: seq<string>, trail: seq<string>): (r: string)
    requires |lead| == |names| == |trail| > 0
  {
    Join(seq(|names|, i requires 0 <= i < |names| => lead[i] + names[i] + trail[i]), ',')
  }

  /** Whatever whitespace surrounds the names, the tags read back are the
      names themselves, in order, empty ones included. */
  lemma TagsRoundTrip(lead: seq<string>, names: seq<string>, trail: seq<string>)
    requires |lead| == |names| == |trail| > 0
    requires forall i :: 0 <= i < |names| ==>
      AllSpace(lead[i]) && AllSpace(trail[i]) && Trimmed(names[i])
    requires forall i :: 0 <= i < |names| ==>
      ',' !in lead[i] && ',' !in names[i] && ',' !in trail[i]
    ensures TagsOf(VStr(TagText(lead, names, trail))).Success?
    ensures Names(TagsOf(VStr(TagText(lead, names, trail))).value) == names
  {
    var pieces := seq(|names|, i requires 0 <= i < |names| => lead[i] + names[i] + trail[i]);
    forall i | 0 <= i < |pieces| ensures ',' !in pieces[i] {
      assert pieces[i] == lead[i] + names[i] + trail[i];
    }
    SplitJoin(pieces, ',');
    var tags := TagsOf(VStr(TagText(lead, names, trail))).value;
    forall i | 0 <= i < |names| ensures tags[i].name == names[i] {
      StripSurrounded(lead[i], names[i], trail[i]);
    }
  }

  /** Empty names survive: `a,,b` has three tags, the middle one empty. */
  lemma TagsKeepEmpty()
    ensures Names(TagsOf(VStr("a,,b")).value) == ["a", "", "b"]
  {
    var lead, names := ["", "", ""], ["a", "", "b"];
    assert TagText(lead, names, lead) == "a,,b" by {
      var parts := seq(3, i requires 0 <= i < 3 => lead[i] + names[i] + lead[i]);
      assert parts[0] == "a" && parts[1] == "" && parts[2] == "b";
      assert parts == names;
      assert parts[1..] == ["", "b"] && parts[1..][1..] == ["b"];
    }
    TagsRoundTrip(lead, names, lead);
  }

  // ---------------------------------------------------------------------
  // Entries

  /** A digest as `hashlib.sha1` returns it: 20 bytes. */
  type Digest = s: seq<byte> | |s| == 20 witness seq(20, _ => 0)

  /** A published post. */
  datatype Entry = Entry(
    content: Option<string>,
    date: ValidDateTime,
    title: Value,
    tags: seq<Tag>,
    url: string,
    id: string)

  /** `'/%04d/%02d/%02d/%s/' % (year, month, day, permalink)`. */
  function EntryUrl(d: ValidDateTime, permalink: string): (r: string)
    ensures |r| == |permalink| + 13 && r[0] == '/' && r[11] == '/' && r[|r| - 1] == '/'
    ensures r[1..11] == DayStamp(d, '/') && r[12..|r| - 1] == permalink
  {
    var r := "/" + DayStamp(d, '/') + "/" + permalink + "/";
    assert r[1..11] == DayStamp(d, '/');
    assert r[12..|r| - 1] == permalink;
    r
  }

  /** Two posts share a URL exactly when they fall on the same day and
      have the same permalink. */
  lemma EntryUrlInjective(a: ValidDateTime, p: string, b: ValidDateTime, q: string)
    ensures EntryUrl(a, p) == EntryUrl(b, q) <==>
      a.year == b.year && a.month == b.month && a.day == b.day && p == q
  {
    DayStampInjective(a, b, '/', '/');
    if a.year == b.year && a.month == b.month && a.day == b.day && p == q {
      assert DayStamp(a, '/') == DayStamp(b, '/');
    }
  }

  /** `'%04d-%02d-%02d-%s' % (year, month, day, permalink)`, the text hashed into the id. */
  function IdText(d: ValidDateTime, permalink: string): (r: string)
    ensures |r| == |permalink| + 11 && r[10] == '-'
    ensures r[..10] == DayStamp(d, '-') && r[11..] == permalink
  {
    var r := DayStamp(d, '-') + "-" + permalink;
    assert r[..10] == DayStamp(d, '-');
    r
  }

  lemma IdTextInjective(a: ValidDateTime, p: string, b: ValidDateTime, q: string)
    ensures IdText(a, p) == IdText(b, q) <==>
      a.year == b.year && a.month == b.month && a.day == b.day && p == q
  {
    DayStampInjective(a, b, '-', '-');
    if a.year == b.year && a.month == b.month && a.day == b.day && p == q {
      assert DayStamp(a, '-') == DayStamp(b, '-');
    }
  }

  /** `BlogEntry(content)`: tags first, then the URL, then the id, the SHA-1
      (FIPS 180-4, a parameter here) of the ASCII bytes of the id text in
      lower-case hex. A permalink outside ASCII cannot be encoded for the
      hash and raises. */
  function BuildEntry(c: Content, sha1: seq<byte> -> Digest): (r: Result<Entry, Error>)
    ensures TagsOf(Get(c.meta, "tags")).Failure? ==> r == Failure(TagsNotAString)
    ensures TagsOf(Get(c.meta, "tags")).Success? && AsciiEncode(IdText(c.date, Render(c.permalink))).None? ==>
      r == Failure(NonAsciiId)
    ensures r.Failure? ==> r.error in {TagsNotAString, NonAsciiId}
    ensures r.Success? <==>
      TagsOf(Get(c.meta, "tags")).Success? && AsciiEncode(IdText(c.date, Render(c.permalink))).Some?
    ensures r.Success? ==>
      && r.value.content == c.parsed && r.value.date == c.date && r.value.title == c.title
      && r.value.tags == TagsOf(Get(c.meta, "tags")).value
      && r.value.url == EntryUrl(c.date, Render(c.permalink))
      && |r.value.id| == 40 && forall i :: 0 <= i < 40 ==> IsHexDigit(r.value.id[i])
  {
    var tags :- TagsOf(Get(c.meta, "tags"));
    var permalink := Render(c.permalink);
    match AsciiEncode(IdText(c.date, permalink))
    case None => Failure(NonAsciiId)
    case Some(bytes) =>
      Success(Entry(c.parsed, c.date, c.title, tags, EntryUrl(c.date, permalink),
                    HexDigest(sha1(bytes))))
  }

  /** The id depends on the day and the permalink alone: two contents on
      the same day with the same permalink get the same id whatever their
      titles, bodies, times of day, tags or cached HTML. */
  lemma IdOnlyFromDayAndPermalink(c1: Content, c2: Content, sha1: seq<byte> -> Digest)
    requires BuildEntry(c1, sha1).Success? && BuildEntry(c2, sha1).Success?
    requires c1.date.year == c2.date.year && c1.date.month == c2.date.month
      && c1.date.day == c2.date.day
    requires Render(c1.permalink) == Render(c2.permalink)
    ensures BuildEntry(c1, sha1).value.id == BuildEntry(c2, sha1).value.id
  {
    IdTextInjective(c1.date, Render(c1.permalink), c2.date, Render(c2.permalink));
  }

  /** The id is the hex form of the digest of the id text, so it gives the
      digest back, and two entries whose id texts differ are hashed from
      different bytes. */
  lemma IdDigest(c: Content, sha1: seq<byte> -> Digest)
    requires BuildEntry(c, sha1).Success?
    ensures var bytes := AsciiEncode(IdText(c.date, Render(c.permalink))).value;
      HexBytes(BuildEntry(c, sha1).value.id) == sha1(bytes)
  {
    var bytes := AsciiEncode(IdText(c.date, Render(c.permalink))).value;
    HexRoundTrip(sha1(bytes));
  }

  /** Entries are derived one content at a time, so they agree on any two
      contents that agree on what an entry reads. */
  lemma BuildEntryDeterministic(c1: Content, c2: Content, sha1: seq<byte> -> Digest)
    requires c1.parsed == c2.parsed && c1.date == c2.date && c1.title == c2.title
    requires Get(c1.meta, "tags") == Get(c2.meta, "tags") && c1.permalink == c2.permalink
    ensures BuildEntry(c1, sha1) == BuildEntry(c2, sha1)
  {
  }
}

=== FILE: index.dfy ===
/** `_write_index`: the newest-first listing, cut into pages of ten, each
    with its own file and links to its neighbours. */
module Indexes {
  import opened Wrappers
  import opened Text

  /** `split`: entries per index page. */
  const PerPage := 10

  function Min(a: int, b: int): int {
    if a <= b then a else b
  }

  /** `range(start, stop, step)` for a positive step. */
  function Range(start: int, stop: int, step: nat): (r: seq<int>)
    requires step > 0
    ensures |r| == 0 <==> start >= stop
    ensures forall i :: 0 <= i < |r| ==> r[i] == start + i * step && r[i] < stop
    ensures |r| > 0 ==> r[|r| - 1] + step >= stop
    decreases stop - start
  {
    if start >= stop then []
    else
      var rest := Range(start + step, stop, step);
      assert forall i :: 1 <= i < |rest| + 1 ==> start + step + (i - 1) * step == start + i * step;
      [start] + rest
  }

  /** `range` with a step of ten yields one start per started block of ten. */
  lemma {:induction false} RangeLength(start: int, stop: int)
    ensures |Range(start, stop, PerPage)| == if start >= stop then 0 else (stop - start + PerPage - 1) / PerPage
    decreases stop - start
  {
    if start < stop {
      RangeLength(start + PerPage, stop);
    }
  }

  /** `pages = total // split + 1`, the count the `next` link is checked
      against. It is one more than the number of pages written whenever
      `total` is a positive multiple of ten. */
  function PageBound(total: nat): nat {
    total / PerPage + 1
  }

  /** `'index.html'` for the first page, `'index%s.html' % (index + 1)` after it. */
  function IndexPath(i: nat): (r: string)
    ensures |r| >= 10 && r[..5] == "index" && r[|r| - 5..] == ".html"
    ensures i == 0 ==> r == "index.html"
    ensures i > 0 ==> var n := r[5..|r| - 5];
      AllDigits(n) && DecimalValue(n) == i + 1 && n[0] != '0'
  {
    if i == 0 then "index.html" else "index" + Decimal(i + 1) + ".html"
  }

  /** Each page has a file of its own. */
  lemma IndexPathInjective(i: nat, j: nat)
    ensures IndexPath(i) == IndexPath(j) <==> i == j
  {
    var p, q := IndexPath(i), IndexPath(j);
    if i > 0 && j > 0 {
      assert p[5..|p| - 5] == Decimal(i + 1);
      assert q[5..|q| - 5] == Decimal(j + 1);
      if p == q {
        DecimalInjective(i + 1, j + 1);
      }
    }
  }

  /** The `prev` link: none on the first page, `index.html` on the second,
      `'index%s.html' % index` after that. */
  function Prev(i: nat): Option<string> {
    if i > 1 then Some("index" + Decimal(i) + ".html")
    else if i == 1 then Some("index.html")
    else None
  }

  /** The `next` link, `'index%s.html' % (index + 2)` while `index < pages - 1`. */
  function Next(i: nat, total: nat): Option<string> {
    if i < PageBound(total) - 1 then Some("index" + Decimal(i + 2) + ".html") else None
  }

  /** `prev` names the page just before, whenever there is one. */
  lemma PrevIsPreviousPage(i: nat)
    ensures Prev(i).Some? <==> i > 0
    ensures i > 0 ==> Prev(i) == Some(IndexPath(i - 1))
  {
  }

  /** `next` names the page just after, and is there exactly while
      `i < total // 10`. */
  lemma NextIsNextPage(i: nat, total: nat)
    ensures Next(i, total).Some? <==> i < total / PerPage
    ensures Next(i, total).Some? ==> Next(i, total) == Some(IndexPath(i + 1))
  {
  }

  /** One index page: its file, its entries and its links. */
  datatype IndexPage<T> = IndexPage(path: string, entries: seq<T>, prev: Option<string>, next: Option<string>)

  /** `contents[start:start + split]`. */
  function Window<T>(s: seq<T>, start: nat): (r: seq<T>)
    requires start <= |s|
  {
    s[start..Min(start + PerPage, |s|)]
  }

  /** The pages written for the newest-first listing `newest`, one per
      element of `range(0, total, split)`. */
  function IndexPages<T>(newest: seq<T>): (pages: seq<IndexPage<T>>)
  {
    var total := |newest|;
    var starts := Range(0, total, PerPage);
    seq(|starts|, i requires 0 <= i < |starts| =>
      IndexPage(IndexPath(i), Window(newest, starts[i]), Prev(i), Next(i, total)))
  }

  /** The entries of the pages, in page order. */
  function AllEntries<T>(pages: seq<IndexPage<T>>): seq<T> {
    if pages == [] then [] else pages[0].entries + AllEntries(pages[1..])
  }

  /** Pages written: the number of started blocks of ten, so none at all
      for an empty listing. */
  lemma PageCount<T>(newest: seq<T>)
    ensures |IndexPages(newest)| == (|newest| + PerPage - 1) / PerPage
    ensures |IndexPages(newest)| == 0 <==> newest == []
  {
    RangeLength(0, |newest|);
  }

  /** Page `i` is `newest[10 i .. 10 i + 10]`, clipped at the end: between
      one and ten entries, at its own path, with its links. */
  lemma PageContents<T>(newest: seq<T>, i: nat)
    requires i < |IndexPages(newest)|
    ensures var p := IndexPages(newest)[i];
      && PerPage * i < |newest|
      && p.entries == newest[PerPage * i..Min(PerPage * i + PerPage, |newest|)]
      && 1 <= |p.entries| <= PerPage
      && p.path == IndexPath(i) && p.prev == Prev(i) && p.next == Next(i, |newest|)
  {
  }

  /** Reading the pages in order gives the listing back: every entry is on
      exactly one page, and the pages are newest first. */
  lemma PagesCoverListing<T>(newest: seq<T>)
    ensures AllEntries(IndexPages(newest)) == newest
  {
    var pages := IndexPages(newest);
    PageCount(newest);
    forall k | 0 <= k < |pages|
      ensures PerPage * k < |newest|
      ensures pages[k].entries == newest[PerPage * k..Min(PerPage * k + PerPage, |newest|)]
    {
      PageContents(newest, k);
    }
    CoverFrom(newest, pages, 0);
    assert pages[0..] == pages;
  }

  /** The pages from the `k`-th on hold the listing from entry `10 k` on. */
  lemma {:induction false} CoverFrom<T>(newest: seq<T>, pages: seq<IndexPage<T>>, k: nat)
    requires |pages| == (|newest| + PerPage - 1) / PerPage
    requires forall i :: 0 <= i < |pages| ==> PerPage * i < |newest|
    requires forall i :: 0 <= i < |pages| ==>
      pages[i].entries == newest[PerPage * i..Min(PerPage * i + PerPage, |newest|)]
    requires k <= |pages|
    ensures AllEntries(pages[k..]) == newest[Min(PerPage * k, |newest|)..]
    decreases |pages| - k
  {
    if k == |pages| {
      assert pages[k..] == [];
    } else {
      CoverFrom(newest, pages, k + 1);
      assert pages[k..][1..] == pages[k + 1..];
      var lo, hi := PerPage * k, Min(PerPage * k + PerPage, |newest|);
      assert Min(PerPage * (k + 1), |newest|) == hi;
      assert newest[lo..] == newest[lo..hi] + newest[hi..];
    }
  }

  /** The last page links to a page that is not written exactly when the
      listing is a positive multiple of ten long; every other `next` names
      a written page. */
  lemma DanglingNext<T>(newest: seq<T>, i: nat)
    requires i < |IndexPages(newest)|
    ensures IndexPages(newest)[i].next.Some? <==>
      i + 1 < |IndexPages(newest)| || |newest| % PerPage == 0
  {
    PageCount(newest);
    PageContents(newest, i);
  }
}

=== FILE: literal.dfy ===
/** The post-processing `_parse_rst` applies to the HTML fragment the
    reStructuredText renderer returns: every literal block
    `<pre class="literal-block">\n[#!lang\n]code</pre>` becomes
    `<pre class="literal-block"><code class="lang">code</code></pre>`. */
module LiteralBlocks {
  import opened Wrappers
  import opened Text

  const Opener := "<pre class=\"literal-block\">\n"
  const Closer := "</pre>"

  /** `\w` on a byte-string pattern without the UNICODE flag. */
  predicate IsWordChar(c: char) {
    'a' <= c <= 'z' || 'A' <= c <= 'Z' || '0' <= c <= '9' || c == '_'
  }

  predicate OpenerAt(s: string, i: nat) {
    i + |Opener| <= |s| && s[i..i + |Opener|] == Opener
  }

  predicate CloserAt(s: string, i: nat) {
    i + |Closer| <= |s| && s[i..i + |Closer|] == Closer
  }

  /** End of the greedy `\w+` run that starts at `p`. */
  function WordRunEnd(s: string, p: nat): (e: nat)
    requires p <= |s|
    ensures p <= e <= |s|
    ensures forall i :: p <= i < e ==> IsWordChar(s[i])
    ensures e == |s| || !IsWordChar(s[e])
    decreases |s| - p
  {
    if p < |s| && IsWordChar(s[p]) then WordRunEnd(s, p + 1) else p
  }

  /** The optional group `(?:#\!(?P<lang>\w+)\n)?` at the start of `s`: the
      language and the length of the line it occupies. Shortening `\w+`
      leaves a word character where `\n` is needed, so the greedy run decides. */
  function LangLine(s: string): (r: Option<(string, nat)>)
    ensures r.Some? ==> 4 <= r.value.1 <= |s| && r.value.0 == s[2..r.value.1 - 1]
    ensures r.Some? ==> s[0] == '#' && s[1] == '!' && IsLanguage(r.value.0) && s[r.value.1 - 1] == '\n'
  {
    if |s| >= 2 && s[0] == '#' && s[1] == '!' then
      var e := WordRunEnd(s, 2);
      LanguageEndsRun(s, e);
      if e > 2 && e < |s| && s[e] == '\n' then Some((s[2..e], e + 1)) else None
    else None
  }

  /** The line is missing only when no `#!`, language, newline prefix exists:
      any such prefix is the one `LangLine` finds. */
  lemma LangLineAbsent(s: string)
    ensures LangLine(s).None? <==> !exists e :: LangLineEndsAt(s, e)
  {
    if |s| >= 2 && s[0] == '#' && s[1] == '!' {
      LanguageEndsRun(s, WordRunEnd(s, 2));
    }
    if LangLine(s).Some? {
      assert LangLineEndsAt(s, LangLine(s).value.1 - 1);
    }
  }

  /** `s` starts with `#!`, a language ending at `e`, and a newline there. */
  predicate LangLineEndsAt(s: string, e: int) {
    2 < e < |s| && s[0] == '#' && s[1] == '!' && IsLanguage(s[2..e]) && s[e] == '\n'
  }

  /** A language followed by a newline ends exactly where the word run does. */
  lemma LanguageEndsRun(s: string, e: nat)
    requires 2 <= |s| && e == WordRunEnd(s, 2)
    ensures e > 2 ==> IsLanguage(s[2..e])
    ensures forall k :: 2 < k < |s| && IsLanguage(s[2..k]) && s[k] == '\n' ==> k == e
  {
    forall k | 2 < k < |s| && IsLanguage(s[2..k]) && s[k] == '\n' ensures k == e {
      forall i | 2 <= i < k ensures IsWordChar(s[i]) {
        assert s[2..k][i - 2] == s[i];
      }
      WordRunEndAt(s, 2, k);
    }
    if e > 2 {
      assert forall i :: 0 <= i < e - 2 ==> s[2..e][i] == s[i + 2];
    }
  }

  /** The lazy `(?P<code>.*?)</pre>`: the first `</pre>` at or after `p`. */
  function FindCloser(s: string, p: nat): (r: Option<nat>)
    requires p <= |s|
    ensures r.Some? ==> p <= r.value && CloserAt(s, r.value)
    ensures r.Some? ==> forall i :: p <= i < r.value ==> !CloserAt(s, i)
    ensures r.None? ==> forall i :: p <= i <= |s| ==> !CloserAt(s, i)
    decreases |s| - p
  {
    if p + |Closer| > |s| then None
    else if CloserAt(s, p) then Some(p)
    else FindCloser(s, p + 1)
  }

  /** One match of the block pattern: its language, its code and its length. */
  datatype Block = Block(lang: Option<string>, code: string, length: nat)

  /** The block pattern anchored at the start of `s`. When the language
      line matches but no `</pre>` follows it, dropping the optional group
      cannot help: no `</pre>` can start inside that line. */
  function MatchBlock(s: string): (r: Option<Block>)
    ensures r.Some? ==> |Opener| + |Closer| <= r.value.length <= |s|
  {
    if !OpenerAt(s, 0) then None
    else
      var p := |Opener|;
      var lang := LangLine(s[p..]);
      var q := if lang.Some? then p + lang.value.1 else p;
      match FindCloser(s, q)
      case None => None
      case Some(e) =>
        Some(Block(if lang.Some? then Some(lang.value.0) else None, s[q..e], e + |Closer|))
  }

  /** The language as `'%s' % lang` prints it: a missing one reads `None`. */
  function ClassText(lang: Option<string>): string {
    match lang
    case Some(l) => l
    case None => "None"
  }

  function Replacement(lang: Option<string>, code: string): string {
    "<pre class=\"literal-block\"><code class=\"" + ClassText(lang) + "\">" + code + "</code></pre>"
  }

  /** `code_block_re.sub(repl, html)`: scan left to right, replace each
      match, resume after it. */
  function Rewrite(s: string): string
    decreases |s|
  {
    if s == [] then []
    else
      match MatchBlock(s)
      case Some(b) => Replacement(b.lang, b.code) + Rewrite(s[b.length..])
      case None => [s[0]] + Rewrite(s[1..])
  }

  // ---------------------------------------------------------------------
  // What the rewrite does

  /** The line `#!lang` a block's code may start with; empty without a language. */
  function LangPrefix(lang: Option<string>): string {
    match lang
    case Some(l) => "#!" + l + "\n"
    case None => ""
  }

  /** A language `\w+` accepts. */
  predicate IsLanguage(l: string) {
    |l| > 0 && forall i :: 0 <= i < |l| ==> IsWordChar(l[i])
  }

  /** `</pre>` does not occur inside `code`. */
  predicate NoCloser(code: string) {
    forall i :: 0 <= i <= |code| ==> !CloserAt(code, i)
  }

  /** Text without a block opener passes through the rewrite untouched. */
  lemma {:induction false} RewritePlainPrefix(p: string, s: string)
    requires forall i :: 0 <= i < |p| ==> !OpenerAt(p + s, i)
    ensures Rewrite(p + s) == p + Rewrite(s)
    decreases |p|
  {
    if p != [] {
      PlainTail(p, s);
      RewritePlainPrefix(p[1..], s);
      RewritePlainStep(p, s);
      Uncons(p, Rewrite(s));
    } else {
      assert p + s == s;
    }
  }

  lemma Uncons(p: string, r: string)
    requires p != []
    ensures p + r == [p[0]] + (p[1..] + r)
  {
    assert p == [p[0]] + p[1..];
  }

  /** Dropping the first character keeps a prefix free of openers. */
  lemma PlainTail(p: string, s: string)
    requires p != [] && forall i :: 0 <= i < |p| ==> !OpenerAt(p + s, i)
    ensures forall i :: 0 <= i < |p[1..]| ==> !OpenerAt(p[1..] + s, i)
  {
    var t := p + s;
    forall i | 0 <= i < |p[1..]| ensures !OpenerAt(p[1..] + s, i) {
      assert !OpenerAt(t, i + 1);
      assert (p[1..] + s)[i..] == t[i + 1..];
    }
  }

  /** Where no block starts, the rewrite copies one character. */
  lemma RewritePlainStep(p: string, s: string)
    requires p != [] && !OpenerAt(p + s, 0)
    ensures Rewrite(p + s) == [p[0]] + Rewrite(p[1..] + s)
  {
    var t := p + s;
    assert MatchBlock(t) == None;
    assert t[0] == p[0] && t[1..] == p[1..] + s;
  }

  /** The lazy search stops at the first `</pre>`. */
  lemma {:induction false} FindCloserFirst(s: string, q: nat, e: nat)
    requires q <= e && CloserAt(s, e)
    requires forall i :: q <= i < e ==> !CloserAt(s, i)
    ensures FindCloser(s, q) == Some(e)
    decreases e - q
  {
    if q < e {
      FindCloserFirst(s, q + 1, e);
    }
  }

  /** A `</pre>` cannot start inside `code` when `code` is followed by one,
      as its `<` appears nowhere else in it. */
  lemma NoCloserInside(s: string, q: nat, code: string)
    requires q + |code| + |Closer| <= |s|
    requires s[q..q + |code|] == code && CloserAt(s, q + |code|)
    requires NoCloser(code)
    ensures forall i :: q <= i < q + |code| ==> !CloserAt(s, i)
  {
    forall i | q <= i < q + |code| ensures !CloserAt(s, i) {
      if i + |Closer| <= q + |code| {
        assert !CloserAt(code, i - q);
        SubSlice(s, q, code, i - q, |Closer|);
      } else {
        CloserNotOverlapping(s, q + |code|, i);
      }
    }
  }

  /** Two `</pre>` cannot overlap: the later one's `<` would fall where
      the earlier one has no `<`. */
  lemma CloserNotOverlapping(s: string, c: nat, i: nat)
    requires CloserAt(s, c) && i < c < i + |Closer|
    ensures !CloserAt(s, i)
  {
    var j := c - i;
    assert s[c..c + |Closer|][0] == s[c];
    assert Closer[0] == '<';
    assert Closer[1..] == "/pre>" && '<' !in Closer[1..];
    assert Closer[j] == Closer[1..][j - 1] != '<';
    if i + |Closer| <= |s| {
      assert s[i..i + |Closer|][j] == s[c];
    }
  }

  /** The text the rewrite sees for one block. */
  function BlockText(lang: Option<string>, code: string): string {
    Opener + LangPrefix(lang) + code + Closer
  }

  lemma LangLineOfBlock(lang: Option<string>, code: string, rest: string)
    requires lang.Some? ==> IsLanguage(lang.value)
    requires lang.None? ==> LangLine(code).None?
    ensures lang.Some? ==> LangLine(LangPrefix(lang) + code + Closer + rest) == Some((lang.value, |lang.value| + 3))
    ensures lang.None? ==> LangLine(LangPrefix(lang) + code + Closer + rest) == None
  {
    var x := LangPrefix(lang) + code + Closer + rest;
    if lang.Some? {
      var l := lang.value;
      var tail := "\n" + code + Closer + rest;
      assert x == "#!" + l + tail;
      SplitAround("#!", l, tail);
      assert x[2 + |l|] == tail[0] == '\n';
      assert WordRunEnd(x, 2) == 2 + |l| by {
        WordRunEndAt(x, 2, 2 + |l|);
      }
    } else {
      assert x == code + Closer + rest;
      LangLineOfPlain(code, rest);
    }
  }

  /** Code without a language line keeps none once `</pre>` follows it:
      the closer's `<` ends any word run and is not a newline. */
  lemma LangLineOfPlain(code: string, rest: string)
    requires LangLine(code).None?
    ensures LangLine(code + Closer + rest) == None
  {
    var x := code + Closer + rest;
    forall e | LangLineEndsAt(x, e) ensures LangLineEndsAt(code, e) {
      LangLineBeforeCloser(code, rest, e);
    }
    LangLineAbsent(code);
    LangLineAbsent(x);
  }

  /** A language line of `code + </pre> + rest` lies inside `code`. */
  lemma LangLineBeforeCloser(code: string, rest: string, e: nat)
    requires LangLineEndsAt(code + Closer + rest, e)
    ensures LangLineEndsAt(code, e)
  {
    var x := code + Closer + rest;
    assert x[|code|] == '<' && !IsWordChar('<');
    assert x[..|code|] == code;
    assert |code| > 1 by {
      assert x[|code| + 1] == '/';
    }
    assert e < |code| by {
      assert forall i :: 2 <= i < e ==> x[2..e][i - 2] == x[i];
    }
    assert code[2..e] == x[2..e];
  }

  lemma {:induction false} WordRunEndAt(s: string, p: nat, e: nat)
    requires p <= e < |s| && !IsWordChar(s[e])
    requires forall i :: p <= i < e ==> IsWordChar(s[i])
    ensures WordRunEnd(s, p) == e
    decreases e - p
  {
    if p < e {
      WordRunEndAt(s, p + 1, e);
    }
  }

  /** The block pattern, step by step: opener, optional language line
      ending at `q`, code up to the first `</pre>` at `e`. */
  lemma MatchBlockSteps(s: string, lang: Option<string>, q: nat, e: nat)
    requires OpenerAt(s, 0) && |Opener| <= q <= e
    requires lang.Some? ==> LangLine(s[|Opener|..]) == Some((lang.value, q - |Opener|))
    requires lang.None? ==> LangLine(s[|Opener|..]) == None && q == |Opener|
    requires CloserAt(s, e) && forall i :: q <= i < e ==> !CloserAt(s, i)
    ensures MatchBlock(s) == Some(Block(lang, s[q..e], e + |Closer|))
  {
    FindCloserFirst(s, q, e);
  }

  lemma SplitAround(a: string, m: string, b: string)
    ensures (a + m + b)[|a|..|a| + |m|] == m
    ensures (a + m + b)[|a| + |m|..] == b
  {
  }

  /** Where each of five concatenated pieces sits. */
  lemma Pieces(a: string, b: string, c: string, d: string, e: string)
    ensures var s, q := a + b + c + d + e, |a| + |b|;
      && s[..|a|] == a && s[|a|..] == b + c + d + e
      && s[q..q + |c|] == c && s[q + |c|..q + |c| + |d|] == d
  {
    var s := a + b + c + d + e;
    assert s == a + (b + c + d + e);
    assert s == (a + b) + c + (d + e);
    SplitAround(a + b, c, d + e);
    assert (d + e)[..|d|] == d;
  }

  /** Where the pieces of a block sit in the text that starts with it. */
  lemma BlockLayout(lang: Option<string>, code: string, rest: string)
    ensures var s, q := BlockText(lang, code) + rest, |Opener| + |LangPrefix(lang)|;
      && |BlockText(lang, code)| == q + |code| + |Closer|
      && OpenerAt(s, 0) && s[|Opener|..] == LangPrefix(lang) + code + Closer + rest
      && s[q..q + |code|] == code && CloserAt(s, q + |code|)
  {
    Pieces(Opener, LangPrefix(lang), code, Closer, rest);
  }

  /** The block pattern matches a whole block, and no more. */
  lemma MatchBlockText(lang: Option<string>, code: string, rest: string)
    requires lang.Some? ==> IsLanguage(lang.value)
    requires lang.None? ==> LangLine(code).None?
    requires NoCloser(code)
    ensures MatchBlock(BlockText(lang, code) + rest) == Some(Block(lang, code, |BlockText(lang, code)|))
  {
    BlockLayout(lang, code, rest);
    MatchBlockAt(BlockText(lang, code) + rest, lang, code, rest);
  }

  lemma MatchBlockAt(s: string, lang: Option<string>, code: string, rest: string)
    requires lang.Some? ==> IsLanguage(lang.value)
    requires lang.None? ==> LangLine(code).None?
    requires NoCloser(code)
    requires var q := |Opener| + |LangPrefix(lang)|;
      && OpenerAt(s, 0) && s[|Opener|..] == LangPrefix(lang) + code + Closer + rest
      && s[q..q + |code|] == code && CloserAt(s, q + |code|)
    ensures MatchBlock(s) == Some(Block(lang, code, |Opener| + |LangPrefix(lang)| + |code| + |Closer|))
  {
    var q := |Opener| + |LangPrefix(lang)|;
    LangLineAfterOpener(s, lang, code, rest);
    NoCloserInside(s, q, code);
    MatchBlockSteps(s, lang, q, q + |code|);
  }

  /** The language line the pattern reads right after the opener. */
  lemma LangLineAfterOpener(s: string, lang: Option<string>, code: string, rest: string)
    requires lang.Some? ==> IsLanguage(lang.value)
    requires lang.None? ==> LangLine(code).None?
    requires |Opener| <= |s| && s[|Opener|..] == LangPrefix(lang) + code + Closer + rest
    ensures lang.Some? ==> LangLine(s[|Opener|..]) == Some((lang.value, |LangPrefix(lang)|))
    ensures lang.None? ==> LangLine(s[|Opener|..]) == None
  {
    LangLineOfBlock(lang, code, rest);
  }

  /** Each literal block is replaced by the code element, its `#!lang` line
      turned into the class (`None` without one), and the scan resumes
      right after its `</pre>`. */
  lemma RewriteBlock(lang: Option<string>, code: string, rest: string)
    requires lang.Some? ==> IsLanguage(lang.value)
    requires lang.None? ==> LangLine(code).None?
    requires NoCloser(code)
    ensures Rewrite(BlockText(lang, code) + rest) == Replacement(lang, code) + Rewrite(rest)
  {
    var s := BlockText(lang, code) + rest;
    MatchBlockText(lang, code, rest);
    assert s[|BlockText(lang, code)|..] == rest;
  }

  /** A shell script is code, not a language line: `/` is no word
      character, so its block gets the class `None`. */
  lemma ShebangBlock(rest: string)
    ensures Rewrite(BlockText(None, "#!/bin/sh\n") + rest) == Replacement(None, "#!/bin/sh\n") + Rewrite(rest)
  {
    var code := "#!/bin/sh\n";
    assert WordRunEnd(code, 2) == 2 by {
      WordRunEndAt(code, 2, 2);
    }
    forall i | 0 <= i <= |code| ensures !CloserAt(code, i) {
      if i + |Closer| <= |code| {
        assert code[i..i + |Closer|][0] == code[i] != '<';
      }
    }
    RewriteBlock(None, code, rest);
  }

  /** A fragment without literal blocks comes back unchanged. */
  lemma RewriteWithoutBlocks(s: string)
    requires forall i :: 0 <= i < |s| ==> !OpenerAt(s, i)
    ensures Rewrite(s) == s
  {
    assert s + [] == s;
    RewritePlainPrefix(s, []);
  }
}

=== FILE: printer.dfy ===
/** The output path `Printer.write` derives from a page's target before
    writing it under the output directory. */
module Printers {
  import opened Text

  const IndexFile := "index.html"

  /** `target.lstrip('/')`, then `index.html` appended to a directory
      target (one ending in `/`) or to the empty one. */
  function NormalizeTarget(target: string): (r: string)
    ensures r != [] && r[0] != '/' && r[|r| - 1] != '/'
    ensures var t := LStripChar(target, '/');
      r == t || (r == t + IndexFile && (t == [] || t[|t| - 1] == '/'))
  {
    var t := LStripChar(target, '/');
    if t == [] || t[|t| - 1] == '/' then
      IndexFileAppended(t);
      t + IndexFile
    else t
  }

  /** Appending `index.html` keeps the first character and ends in `l`. */
  lemma IndexFileAppended(t: string)
    ensures var r := t + IndexFile;
      r != [] && r[|r| - 1] == 'l' && r[0] == (if t == [] then 'i' else t[0])
  {
    var r := t + IndexFile;
    assert r[|r| - 1] == IndexFile[9];
    assert r[0] == if t == [] then IndexFile[0] else t[0];
  }

  /** `k` slashes. */
  function Slashes(k: nat): (r: string)
    ensures |r| == k && forall i :: 0 <= i < k ==> r[i] == '/'
  {
    seq(k, _ => '/')
  }

  lemma {:induction false} StripSlashes(k: nat, p: string)
    requires p == [] || p[0] != '/'
    ensures LStripChar(Slashes(k) + p, '/') == p
  {
    if k > 0 {
      assert (Slashes(k) + p)[1..] == Slashes(k - 1) + p;
      StripSlashes(k - 1, p);
    } else {
      assert Slashes(k) + p == p;
    }
  }

  /** A directory target, however many slashes lead it, is written as the
      `index.html` inside that directory. */
  lemma NormalizeDirectory(k: nat, p: string)
    requires p != [] && p[0] != '/' && p[|p| - 1] == '/'
    ensures NormalizeTarget(Slashes(k) + p) == p + IndexFile
  {
    StripSlashes(k, p);
    var t := LStripChar(Slashes(k) + p, '/');
    assert t == p && t != [] && t[|t| - 1] == '/';
  }

  /** A file target loses its leading slashes and nothing else. */
  lemma NormalizeFile(k: nat, p: string)
    requires p != [] && p[0] != '/' && p[|p| - 1] != '/'
    ensures NormalizeTarget(Slashes(k) + p) == p
  {
    StripSlashes(k, p);
    var t := LStripChar(Slashes(k) + p, '/');
    assert t == p && t != [] && t[|t| - 1] != '/';
  }

  /** The root, written as slashes only or as nothing, is `index.html`. */
  lemma NormalizeRoot(k: nat)
    ensures NormalizeTarget(Slashes(k)) == IndexFile
  {
    assert Slashes(k) == Slashes(k) + [];
    StripSlashes(k, []);
  }

  /** A normalised path is its own normal form. */
  lemma NormalizeIdempotent(target: string)
    ensures NormalizeTarget(NormalizeTarget(target)) == NormalizeTarget(target)
  {
    var r := NormalizeTarget(target);
    assert Slashes(0) + r == r;
    NormalizeFile(0, r);
  }
}

=== FILE: sort.dfy ===
/** `sorted(contents, key=attrgetter('date'))`: a stable sort, oldest first. */
module Sorting {
  import opened Dates
  import opened Contents

  /** No content is older than one before it. */
  predicate SortedByDate(s: seq<Content>) {
    forall i, j :: 0 <= i < j < |s| ==> !Before(s[j].date, s[i].date)
  }

  /** The contents dated exactly `d`, in their order. */
  function WithDate(s: seq<Content>, d: DateTime): (r: seq<Content>)
    ensures |r| <= |s|
  {
    if s == [] then []
    else if s[0].date == d then [s[0]] + WithDate(s[1..], d)
    else WithDate(s[1..], d)
  }

  /** "Not older than" chains. */
  lemma NotBeforeTransitive(a: DateTime, b: DateTime, c: DateTime)
    requires !Before(a, b) && !Before(b, c)
    ensures !Before(a, c)
  {
  }

  /** Places `c` before the first element not older than it, so `c` stays
      ahead of the elements that followed it with an equal date. */
  function Insert(c: Content, s: seq<Content>): (r: seq<Content>)
    requires SortedByDate(s)
    ensures SortedByDate(r)
    ensures multiset(r) == multiset(s) + multiset{c}
  {
    if s == [] then [c]
    else if !Before(s[0].date, c.date) then
      SortedCons(c, s);
      [c] + s
    else
      var t := Insert(c, s[1..]);
      assert s == [s[0]] + s[1..];
      SortedConsOlder(s[0], s[1..], c, t);
      [s[0]] + t
  }

  lemma SortedCons(c: Content, s: seq<Content>)
    requires SortedByDate(s) && s != [] && !Before(s[0].date, c.date)
    ensures SortedByDate([c] + s)
  {
    forall j | 0 <= j < |s| ensures !Before(s[j].date, c.date) {
      if j > 0 {
        NotBeforeTransitive(s[j].date, s[0].date, c.date);
      }
    }
    assert forall j | 1 <= j < |[c] + s| :: ([c] + s)[j] == s[j - 1];
  }

  lemma SortedConsOlder(h: Content, s: seq<Content>, c: Content, t: seq<Content>)
    requires SortedByDate([h] + s) && SortedByDate(t) && Before(h.date, c.date)
    requires multiset(t) == multiset(s) + multiset{c}
    ensures SortedByDate([h] + t)
  {
    forall j | 0 <= j < |t| ensures !Before(t[j].date, h.date) {
      var x := t[j];
      assert x in multiset(t);
      if x != c {
        assert x in multiset(s);
        var k :| 0 <= k < |s| && s[k] == x;
        assert ([h] + s)[k + 1] == x && ([h] + s)[0] == h;
      } else {
        BeforeIsStrictTotalOrder(h.date, c.date, c.date);
      }
    }
    assert forall j | 1 <= j < |[h] + t| :: ([h] + t)[j] == t[j - 1];
  }

  /** Inserting `c` leaves the order among every other date alone and puts
      `c` first among the contents of its own date. */
  lemma {:induction false} InsertWithDate(c: Content, s: seq<Content>, d: DateTime)
    requires SortedByDate(s)
    ensures WithDate(Insert(c, s), d) == if c.date == d then [c] + WithDate(s, d) else WithDate(s, d)
  {
    if s == [] {
    } else if !Before(s[0].date, c.date) {
      assert ([c] + s)[1..] == s;
    } else {
      var t := Insert(c, s[1..]);
      assert ([s[0]] + t)[1..] == t;
      InsertWithDate(c, s[1..], d);
      BeforeIsStrictTotalOrder(s[0].date, c.date, d);
    }
  }

  /** Insertion sort from the back: the tail is sorted first, then the head
      is inserted ahead of its equals. */
  function SortByDate(s: seq<Content>): (r: seq<Content>)
    ensures SortedByDate(r)
    ensures multiset(r) == multiset(s)
  {
    if s == [] then []
    else
      assert s == [s[0]] + s[1..];
      Insert(s[0], SortByDate(s[1..]))
  }

  /** The sort is stable: the contents of any one date come out in the
      order they went in. */
  lemma {:induction false} SortStable(s: seq<Content>, d: DateTime)
    ensures WithDate(SortByDate(s), d) == WithDate(s, d)
  {
    if s != [] {
      SortStable(s[1..], d);
      InsertWithDate(s[0], SortByDate(s[1..]), d);
    }
  }
}

=== FILE: text.dfy ===
/** String helpers with the exact behaviour of the Python 2 built-ins the
    pipeline calls: `str.strip()`, `str.lstrip(c)`, `str.split(',')`,
    `'%d'` / `'%0Nd'` formatting, ASCII encoding and `hexdigest()`. */
module Text {
  import opened Wrappers

  type byte = b: int | 0 <= b < 256

  // ---------------------------------------------------------------------
  // Whitespace and strip()

  /** The characters `\s` and `str.strip()` treat as whitespace on a
      byte-string pattern without the UNICODE flag. */
  predicate IsSpace(c: char) {
    c == ' ' || c == '\t' || c == '\n' || c == '\r' || c == '\U{0B}' || c == '\U{0C}'
  }

  predicate AllSpace(s: string) {
    forall i :: 0 <= i < |s| ==> IsSpace(s[i])
  }

  /** No whitespace at either end: what `strip()` leaves behind. */
  predicate Trimmed(s: string) {
    s == [] || (!IsSpace(s[0]) && !IsSpace(s[|s| - 1]))
  }

  /** `s.lstrip()`: drops the leading whitespace run. */
  function LStrip(s: string): (r: string)
    ensures |r| <= |s| && r == s[|s| - |r|..]
    ensures AllSpace(s[..|s| - |r|])
    ensures r == [] || !IsSpace(r[0])
  {
    if |s| > 0 && IsSpace(s[0]) then
      var r := LStrip(s[1..]);
      assert s[..|s| - |r|] == [s[0]] + s[1..][..|s| - 1 - |r|];
      r
    else s
  }

  /** `s.rstrip()`: drops the trailing whitespace run. */
  function RStrip(s: string): (r: string)
    ensures |r| <= |s| && r == s[..|r|]
    ensures AllSpace(s[|r|..])
    ensures r == [] || !IsSpace(r[|r| - 1])
  {
    if |s| > 0 && IsSpace(s[|s| - 1]) then
      var t := s[..|s| - 1];
      var r := RStrip(t);
      assert s[|r|..] == t[|r|..] + [s[|s| - 1]];
      r
    else s
  }

  /** `s.strip()`. */
  function Strip(s: string): (r: string)
    ensures Trimmed(r)
    ensures |r| <= |s|
  {
    RStrip(LStrip(s))
  }

  lemma {:induction false} LStripPastSpaces(a: string, t: string)
    requires AllSpace(a)
    requires t == [] || !IsSpace(t[0])
    ensures LStrip(a + t) == t
    decreases |a|
  {
    if a == [] {
      assert a + t == t;
    } else {
      assert (a + t)[1..] == a[1..] + t;
      LStripPastSpaces(a[1..], t);
    }
  }

  lemma {:induction false} RStripPastSpaces(t: string, b: string)
    requires AllSpace(b)
    requires t == [] || !IsSpace(t[|t| - 1])
    ensures RStrip(t + b) == t
    decreases |b|
  {
    if b == [] {
      assert t + b == t;
    } else {
      assert (t + b)[..|t + b| - 1] == t + b[..|b| - 1];
      RStripPastSpaces(t, b[..|b| - 1]);
    }
  }

  /** `strip()` removes exactly the surrounding whitespace: a trimmed text
      between two whitespace runs comes back unchanged, and nothing else. */
  lemma StripSurrounded(a: string, m: string, b: string)
    requires AllSpace(a) && AllSpace(b) && Trimmed(m)
    ensures Strip(a + m + b) == m
  {
    if m == [] {
      assert a + m + b == (a + b) + [];
      LStripPastSpaces(a + b, []);
    } else {
      assert a + m + b == a + (m + b);
      LStripPastSpaces(a, m + b);
      RStripPastSpaces(m, b);
    }
  }

  /** `s.lstrip(c)`: drops every leading occurrence of `c`. */
  function LStripChar(s: string, c: char): (r: string)
    ensures |r| <= |s| && r == s[|s| - |r|..]
    ensures forall i :: 0 <= i < |s| - |r| ==> s[i] == c
    ensures r == [] || r[0] != c
  {
    if |s| > 0 && s[0] == c then LStripChar(s[1..], c) else s
  }

  /** A slice of a slice is a slice of the whole. */
  lemma SubSlice(s: string, q: nat, code: string, k: nat, n: nat)
    requires q + |code| <= |s| && s[q..q + |code|] == code && k + n <= |code|
    ensures code[k..k + n] == s[q + k..q + k + n]
  {
    forall j | k <= j < k + n ensures code[j] == s[q + j] {
      assert code[j] == s[q..q + |code|][j];
    }
    assert code[k..k + n] == s[q + k..q + k + n];
  }

  // ---------------------------------------------------------------------
  // split() and join()

  /** `sep.join(parts)`. */
  function Join(parts: seq<string>, sep: char): string
    requires |parts| > 0
  {
    if |parts| == 1 then parts[0] else parts[0] + [sep] + Join(parts[1..], sep)
  }

  lemma JoinConsChar(c: char, parts: seq<string>, sep: char)
    requires |parts| > 0
    ensures Join([[c] + parts[0]] + parts[1..], sep) == [c] + Join(parts, sep)
  {
    var ps := [[c] + parts[0]] + parts[1..];
    assert ps[1..] == parts[1..];
  }

  /** `s.split(sep)` for a one-character separator: always at least one
      piece, one more than the separators in `s`, none containing `sep`, and
      joining them back with `sep` gives `s`. */
  function Split(s: string, sep: char): (r: seq<string>)
    ensures |r| == multiset(s)[sep] + 1
    ensures forall i :: 0 <= i < |r| ==> sep !in r[i]
    ensures Join(r, sep) == s
  {
    if s == [] then [[]]
    else
      assert s == [s[0]] + s[1..];
      assert multiset(s) == multiset{s[0]} + multiset(s[1..]);
      var rest := Split(s[1..], sep);
      if s[0] == sep then
        assert ([[]] + rest)[1..] == rest;
        [[]] + rest
      else
        JoinConsChar(s[0], rest, sep);
        ConsOntoHead(s[0], rest, sep);
        [[s[0]] + rest[0]] + rest[1..]
  }

  lemma ConsOntoHead(c: char, parts: seq<string>, sep: char)
    requires |parts| > 0 && c != sep && forall i :: 0 <= i < |parts| ==> sep !in parts[i]
    ensures var r := [[c] + parts[0]] + parts[1..];
      |r| == |parts| && forall i :: 0 <= i < |r| ==> sep !in r[i]
  {
    var r := [[c] + parts[0]] + parts[1..];
    forall i | 0 <= i < |r| ensures sep !in r[i] {
      if i > 0 {
        assert r[i] == parts[i];
      }
    }
  }

  lemma SplitConsSep(sep: char, t: string)
    ensures Split([sep] + t, sep) == [[]] + Split(t, sep)
  {
    assert ([sep] + t)[1..] == t;
  }

  lemma SplitConsChar(c: char, t: string, sep: char)
    requires c != sep
    ensures Split([c] + t, sep) == [[c] + Split(t, sep)[0]] + Split(t, sep)[1..]
  {
    assert ([c] + t)[1..] == t;
  }

  /** Splitting a join of separator-free pieces gives the pieces back. */
  lemma {:induction false} SplitJoin(parts: seq<string>, sep: char)
    requires |parts| > 0
    requires forall i :: 0 <= i < |parts| ==> sep !in parts[i]
    ensures Split(Join(parts, sep), sep) == parts
    decreases |parts|, |parts[0]|, 1
  {
    if |parts| == 1 {
      SplitNoSep(parts[0], sep);
    } else if parts[0] == [] {
      SplitJoinEmptyHead(parts, sep);
    } else {
      SplitJoinCharHead(parts, sep);
    }
  }

  lemma {:induction false} SplitJoinEmptyHead(parts: seq<string>, sep: char)
    requires |parts| > 1 && parts[0] == []
    requires forall i :: 0 <= i < |parts| ==> sep !in parts[i]
    ensures Split(Join(parts, sep), sep) == parts
    decreases |parts|, |parts[0]|, 0
  {
    var tail := parts[1..];
    var j := Join(tail, sep);
    assert Join(parts, sep) == [sep] + j;
    SplitJoin(tail, sep);
    SplitConsSep(sep, j);
    assert parts == [[]] + tail;
  }

  lemma {:induction false} SplitJoinCharHead(parts: seq<string>, sep: char)
    requires |parts| > 1 && parts[0] != []
    requires forall i :: 0 <= i < |parts| ==> sep !in parts[i]
    ensures Split(Join(parts, sep), sep) == parts
    decreases |parts|, |parts[0]|, 0
  {
    var c := parts[0][0];
    var ps := [parts[0][1..]] + parts[1..];
    assert ps[1..] == parts[1..];
    assert parts[0] == [c] + ps[0];
    assert forall i :: 0 <= i < |ps| ==> sep !in ps[i] by {
      forall i | 0 <= i < |ps| ensures sep !in ps[i] {
        if i > 0 {
          assert ps[i] == parts[i];
        }
      }
    }
    SplitJoin(ps, sep);
    JoinConsChar(c, ps, sep);
    assert [[c] + ps[0]] + ps[1..] == parts;
    SplitConsChar(c, Join(ps, sep), sep);
  }

  lemma {:induction false} SplitNoSep(s: string, sep: char)
    requires sep !in s
    ensures Split(s, sep) == [s]
    decreases |s|
  {
    if s != [] {
      assert s[0] != sep;
      SplitNoSep(s[1..], sep);
    }
  }

  // ---------------------------------------------------------------------
  // Decimal numbers

  predicate IsDigit(c: char) {
    '0' <= c <= '9'
  }

  predicate AllDigits(s: string) {
    forall i :: 0 <= i < |s| ==> IsDigit(s[i])
  }

  function DigitChar(n: nat): (c: char)
    requires n < 10
    ensures IsDigit(c) && c as int - '0' as int == n
  {
    ('0' as int + n) as char
  }

  function DigitValue(c: char): (n: nat)
    requires IsDigit(c)
    ensures n < 10 && DigitChar(n) == c
  {
    c as int - '0' as int
  }

  /** `int(s)` for a string of decimal digits. */
  function DecimalValue(s: string): nat
    requires AllDigits(s)
  {
    if s == [] then 0 else 10 * DecimalValue(s[..|s| - 1]) + DigitValue(s[|s| - 1])
  }

  function Pow10(k: nat): nat {
    if k == 0 then 1 else 10 * Pow10(k - 1)
  }

  /** `'%d' % n` (and `str(n)`) for a non-negative integer: the shortest
      digit string whose value is `n`. */
  function Decimal(n: nat): (r: string)
    ensures |r| > 0 && AllDigits(r)
    ensures DecimalValue(r) == n
    ensures |r| > 1 ==> r[0] != '0'
  {
    if n < 10 then [DigitChar(n)]
    else
      var r := Decimal(n / 10) + [DigitChar(n % 10)];
      assert r[..|r| - 1] == Decimal(n / 10);
      r
  }

  /** Distinct numbers print differently. */
  lemma DecimalInjective(m: nat, n: nat)
    requires Decimal(m) == Decimal(n)
    ensures m == n
  {
  }

  lemma {:induction false} DecimalLength(n: nat, k: nat)
    requires 1 <= k && n < Pow10(k)
    ensures |Decimal(n)| <= k
    decreases k
  {
    if n >= 10 {
      assert k > 1;
      DecimalLength(n / 10, k - 1);
    }
  }

  function Zeros(k: nat): (r: string)
    ensures |r| == k && AllDigits(r)
    ensures forall i :: 0 <= i < k ==> r[i] == '0'
  {
    if k == 0 then [] else ['0'] + Zeros(k - 1)
  }

  lemma {:induction false} ZerosValue(k: nat)
    ensures DecimalValue(Zeros(k)) == 0
  {
    if k > 0 {
      var z := Zeros(k);
      assert z[..k - 1] == Zeros(k - 1);
      ZerosValue(k - 1);
    }
  }

  lemma {:induction false} LeadingZerosValue(k: nat, d: string)
    requires AllDigits(d)
    ensures AllDigits(Zeros(k) + d)
    ensures DecimalValue(Zeros(k) + d) == DecimalValue(d)
    decreases |d|
  {
    var s := Zeros(k) + d;
    if d == [] {
      assert s == Zeros(k);
      ZerosValue(k);
    } else {
      assert s[..|s| - 1] == Zeros(k) + d[..|d| - 1];
      LeadingZerosValue(k, d[..|d| - 1]);
    }
  }

  /** `'%0*d' % (width, n)`: the decimal digits of `n` left-padded with
      zeros to at least `width` characters; it still reads as `n`, and it is
      exactly `width` long whenever `n` has at most `width` digits. */
  function ZeroPad(n: nat, width: nat): (r: string)
    ensures AllDigits(r) && DecimalValue(r) == n
    ensures |r| >= width
    ensures 1 <= width && n < Pow10(width) ==> |r| == width
  {
    var d := Decimal(n);
    if |d| >= width then
      if 1 <= width && n < Pow10(width) then DecimalLength(n, width); d else d
    else
      LeadingZerosValue(width - |d|, d);
      Zeros(width - |d|) + d
  }

  /** Two-digit padding, character by character. */
  lemma ZeroPad2(n: nat)
    requires n < 100
    ensures ZeroPad(n, 2) == [DigitChar(n / 10), DigitChar(n % 10)]
  {
    if n >= 10 {
      assert Decimal(n) == Decimal(n / 10) + [DigitChar(n % 10)];
    }
  }

  /** A fixed-width digit string determines its number, and back. */
  lemma FixedWidthInjective(a: nat, b: nat, width: nat)
    requires ZeroPad(a, width) == ZeroPad(b, width)
    ensures a == b
  {
  }

  // ---------------------------------------------------------------------
  // ASCII encoding and hex digests

  /** Python 2's implicit ASCII encoding of a unicode string: fails on any
      character outside ASCII, otherwise one byte per character. */
  function AsciiEncode(s: string): (r: Option<seq<byte>>)
    ensures r.Some? <==> forall i :: 0 <= i < |s| ==> s[i] as int < 128
    ensures r.Some? ==> |r.value| == |s| && forall i :: 0 <= i < |s| ==> r.value[i] == s[i] as int
  {
    if s == [] then Some([])
    else if s[0] as int >= 128 then None
    else
      match AsciiEncode(s[1..])
      case None => None
      case Some(rest) => Some([s[0] as int as byte] + rest)
  }

  /** A lower-case hexadecimal digit, as `hexdigest()` writes them. */
  predicate IsHexDigit(c: char) {
    '0' <= c <= '9' || 'a' <= c <= 'f'
  }

  function HexChar(n: nat): (c: char)
    requires n < 16
    ensures IsHexDigit(c)
  {
    if n < 10 then ('0' as int + n) as char else ('a' as int + n - 10) as char
  }

  function HexValue(c: char): (n: nat)
    requires IsHexDigit(c)
    ensures n < 16 && HexChar(n) == c
  {
    if '0' <= c <= '9' then c as int - '0' as int else c as int - 'a' as int + 10
  }

  /** `hexdigest()`: two lower-case hex digits per byte, high nibble first. */
  function HexDigest(bytes: seq<byte>): (r: string)
    ensures |r| == 2 * |bytes|
    ensures forall i :: 0 <= i < |r| ==> IsHexDigit(r[i])
  {
    if bytes == [] then []
    else [HexChar(bytes[0] / 16), HexChar(bytes[0] % 16)] + HexDigest(bytes[1..])
  }

  /** Reads a hex digest back into bytes. */
  function HexBytes(s: string): (r: seq<byte>)
    requires |s| % 2 == 0
    requires forall i :: 0 <= i < |s| ==> IsHexDigit(s[i])
  {
    if s == [] then []
    else [(16 * HexValue(s[0]) + HexValue(s[1])) as byte] + HexBytes(s[2..])
  }

  /** The digest text loses nothing: it decodes to the bytes it came from. */
  lemma {:induction false} HexRoundTrip(bytes: seq<byte>)
    ensures HexBytes(HexDigest(bytes)) == bytes
  {
    if bytes != [] {
      var b := bytes[0];
      var h := HexDigest(bytes);
      assert h[2..] == HexDigest(bytes[1..]);
      assert HexValue(h[0]) == b / 16;
      assert HexValue(h[1]) == b % 16;
      assert (16 * (b / 16) + b % 16) as byte == b;
      HexRoundTrip(bytes[1..]);
      assert HexBytes(h) == [b] + HexBytes(h[2..]);
    }
  }
}

=== FILE: values.dfy ===
/** Decoded metadata values and the pipeline's errors. */
module Values {
  import opened Dates

  /** A value of the decoded metadata mapping. YAML may hand over a string,
      an already-built datetime (an unquoted `2020-03-01 10:00:00`), null,
      or anything else (a number, a date, a list), which the pipeline only
      ever prints, so it is carried by its `str()`. */
  datatype Value =
    | VStr(s: string)
    | VDateTime(dt: ValidDateTime)
    | VNone
    | VOther(text: string)

  /** The keyword arguments a document's metadata becomes. */
  type Metadata = map<string, Value>

  /** `meta.get(key, None)`. */
  function Get(meta: Metadata, key: string): (v: Value)
    ensures key !in meta ==> v == VNone
    ensures key in meta ==> v == meta[key]
  {
    if key in meta then meta[key] else VNone
  }

  /** `'%s' % v`. */
  function Render(v: Value): string {
    match v
    case VStr(s) => s
    case VDateTime(d) => Format(d)
    case VNone => "None"
    case VOther(t) => t
  }

  /** Every exception the core can raise; each one aborts the build. */
  datatype Error =
    | InvalidContentFormat          // ValueError 'Invalid content format'
    | MetadataDecodeError           // yaml.load fails or does not give a mapping
    | ArgumentClash                 // TypeError: a metadata key named `content` or `self`
    | MissingField(name: string)    // AssertionError on a required key
    | DateNotAString                // TypeError from strptime on a non-string
    | DateWithNul                   // TypeError from strptime on a string holding a NUL
    | InvalidDate(text: string)     // ValueError 'Invalid date: %s'
    | DateOutOfRange                // ValueError from datetime(*fields)
    | TagsNotAString                // AttributeError: the tags value has no split()
    | NonAsciiId                    // UnicodeEncodeError hashing the id text
}

=== FILE: wrappers.dfy ===
/** Failure-compatible datatypes used for the pipeline's exceptions. */
module Wrappers {

  /** A value that may be absent (Python's `None`). */
  datatype Option<+T> = None | Some(value: T) {

    predicate IsFailure() {
      None?
    }

    function PropagateFailure<U>(): Option<U>
      requires None?
    {
      None
    }

    function Extract(): T
      requires Some?
    {
      value
    }
  }

  /** The outcome of an operation that may raise. */
  datatype Result<+T, +E> = Success(value: T) | Failure(error: E) {

    predicate IsFailure() {
      Failure?
    }

    function PropagateFailure<U>(): Result<U, E>
      requires Failure?
    {
      Failure(error)
    }

    function Extract(): T
      requires Success?
    {
      value
    }
  }
}
